=== FILE: README.md ===
# pymeleon rewrite rules in Dafny

This project models the graph-rewrite rule engine of pymeleon (`language/rule.py`).
A `Rule` is built from an input pattern and an output pattern. Both are rooted,
ordered graphs whose first node is the `"root_node"` sentinel.

Construction pairs output-pattern nodes with input-pattern nodes that carry the
same free variable or constant payload. This builds `node_dict` and
`reverse_node_dict`.

`apply` rewrites a target graph in place, given a match (`transform_node_dict`)
from input-pattern nodes to target nodes. It has three phases:

1. Strip the target edges that mirror input-pattern edges.
2. Add a fresh copy of the output pattern. A copy of an output node with a
   correspondent takes the payload of the matched target node.
3. Visit the matched target nodes. A matched node whose input-pattern node
   received copies is replaced by those copies: sibling orders are shifted to
   make room, and its boundary edges are moved to the copies. A matched node
   without copies is removed when nothing hangs below it and it has no parent or
   has the root as a parent.

Modules, one per file:

- `Results` (`results.dfy`): the error cases the source raises (`KeyError`,
  missing edge, missing node, missing payload, too-deep recursion), as a
  `Result` type.
- `OrderedGraph` (`graph.dfy`): the target graph.
  - Nodes are `nat` ids, with 0 as the root sentinel.
  - A payload map covers every allocated node, and a node joins the graph only
    when an edge touches it, as with networkx.
  - An edge-to-order map holds the edges, and an allocation counter stands in
    for `Node(...)`.
  - Pattern graphs keep their node list and successor lists in insertion order.
- `Correspondence` (`correspondence.dfy`): `_create_node_dict`.
- `Matches` (`match.dfy`): the match as a list of dictionary items, the
  dictionary it denotes, and `reverse_transform_dict` with its iteration order.
- `StripMatched` (`strip.dfy`): phase one.
- `Instantiate` (`instantiate.dfy`): phase two.
- `Reattach` (`reattach.dfy`): phase three, and the line-137 finding.
- `RuleEngine` (`rule.dfy`): `Rule.__init__`, `apply`, and end-to-end properties.

Line 137 looks up copies under the target node itself. The model uses the
corrected lookup, `_cur_node_dict[reverse_transform_dict[graph_node]]` (see
Findings). With this lookup the root is a boundary predecessor like any other
unless the match maps the input root to it. So when the root is not matched, an
edge from the root to a replaced node also moves to the copies.

## Model

| member | source | states |
|---|---|---|
| `RuleEngine.NewRule` | language/rule.py:31-43 | Construction succeeds exactly when every payload free in both patterns is carried by some input-pattern node. The rule then keeps both patterns, and its dictionaries are exactly the payload pairing `IsNodeDicts` describes. |
| `Correspondence.CreateNodeDict` | language/rule.py:45-64 | Fails (the `KeyError` of line 58 or 60) exactly when a shared payload has no input node. Otherwise `reverse_node_dict` covers exactly the output nodes with a shared payload and sends each to the last input node carrying that payload. `node_dict` is keyed by those input nodes, and each key lists the output nodes carrying its payload, in output-pattern order. |
| `Correspondence.IndexByPayload` | language/rule.py:48-51 | `graph_in_node_dict` has exactly the payloads of the listed nodes as keys, and maps each to the last node carrying it: later nodes overwrite earlier ones. |
| `Correspondence.PairPayload` | language/rule.py:55-59 | Collects the unmatched nodes carrying the payload, in list order, and pairs each with the payload's indexed input node, leaving other pairs as they were. Fails with the `KeyError` of line 58 exactly when such a node exists and the payload has no index entry. |
| `Correspondence.PairedSoFarStep` | language/rule.py:54-62 | Handling one more shared payload extends the pairing. The new payload's output nodes are struck from the unmatched list and sent back to its indexed input node. They are listed under that node in output-pattern order, and earlier entries stay as they were. |
| `Correspondence.BackwardKeepsPayload` | language/rule.py:52-59 | Every paired output node maps to an input node (never the root) with the same payload, and that payload is free in both patterns. |
| `Correspondence.ForwardInvertsBackward` | language/rule.py:56-62 | `o` is listed under `i` in `node_dict` exactly when `reverse_node_dict[o] == i`, so no output node is listed under two keys. |
| `Correspondence.RootNeverPaired` | language/rule.py:49-53 | The root sentinel is neither a key nor a value of either dictionary. |
| `Correspondence.ForwardListsCountCopies` | language/rule.py:52-60 | A payload carried by k output nodes gives a `node_dict` list of length k holding exactly those nodes. An output payload that is not free in the input pattern pairs nothing. |
| `Matches.Reverse` | language/rule.py:121 | The keys of `reverse_transform_dict` are exactly the target nodes of the match. |
| `Matches.TargetOrder` | language/rule.py:121 | The loop at line 136 visits each target node of the match exactly once. |
| `Matches.TargetOrderByFirstOccurrence` | language/rule.py:121 | The visit order is the order of first occurrence in the match: every occurrence of a later-visited target node comes after an occurrence of an earlier-visited one. |
| `Matches.ReverseUndoesImage` | language/rule.py:121-125 | With distinct dictionary keys, `reverse_transform_dict` sends each target node to an input node that the match sends back to it. Distinct target nodes come from distinct input nodes. |
| `StripMatched.StripFrom` | language/rule.py:72-76 | On success only mirrored edges are removed, with no node, payload or surviving order touched, and every edge mirroring a pattern edge below `node` is gone. It succeeds exactly when the mirrors of the pattern edges below `node` (`MirrorsFrom`, in visiting order) are all defined and are distinct edges of the target. It then removes exactly those edges. When they are defined but one is missing or repeated, the error is the networkx missing-edge error. |
| `StripMatched.StripEach` | language/rule.py:74-76 | For each successor in the list, the mirrored edge and everything below it is stripped, and nothing but mirrored edges is removed. A missing match key for the first successor is a `KeyError`, and a missing target edge is the networkx error. It succeeds exactly when the mirrors the loop visits (`MirrorsEach`) are defined and are distinct target edges, and it removes exactly those. |
| `StripMatched.StripFirst` | language/rule.py:74-76 | One round of that loop on a non-empty list: a `KeyError` when the node or the first successor is unmatched, the networkx error when the mirrored edge is missing, and otherwise the same success condition and removed edges as the whole loop. |
| `StripMatched.StripRoots` | language/rule.py:128-129 | Stripping below each child of the input root in turn removes only mirrored edges, and every mirrored edge within reach below each child is gone. It succeeds exactly when the concatenated mirrors are defined and are distinct target edges, removes exactly those, and otherwise fails with the missing-edge error whenever the mirrors are defined. |
| `StripMatched.RemovableConcat` | language/rule.py:74-76 | Removing the edges of `a + b` one by one succeeds exactly when removing `a` succeeds and `b` is then removable from what is left. |
| `StripMatched.Strip` | language/rule.py:127-129 | Phase one removes only edges `(match[u], match[v])` for pattern edges `(u, v)`, and removes every such edge reachable from the input root's children. It adds no edge and removes no node. It succeeds exactly when the mirrors of the edges it visits (`StripPlan`) are defined and are distinct target edges; it then removes exactly those edges, and otherwise fails with the missing-edge error whenever they are defined. |
| `Instantiate.CopyOutputNode` | language/rule.py:78-88 | Succeeds exactly when the output node has a payload to copy: its correspondent is matched to a target node with a payload, or it has no correspondent and has its own payload. It then allocates the next fresh node. With a correspondent, the node takes the matched target node's payload and is appended to that input node's copy list. Without one, it takes the output node's own payload and the lists are unchanged. |
| `Instantiate.AddBelow` | language/rule.py:90-95 | The whole unfolding of the output pattern below the node is copied beneath the node's copy: every successor gets a copy hung under it, recursively, down to nodes without successors. The phase-two invariant is kept and nothing already built changes. It succeeds exactly when every node of the unfolding (`UnfoldBelow`, a node reached along two paths counted twice) can be copied. It then allocates exactly one fresh node per entry, in order, and each copy list keeps its old entries and gains, at its end, the new copies of the entries corresponding to its key, in creation order. |
| `Instantiate.AddChildren` | language/rule.py:92-95 | Every listed successor gets a copy under the node's copy, with its own subtree copied beneath it. It succeeds exactly when every node of the successors' unfolding can be copied, and then allocates exactly one node per entry and grows each copy list by that key's count. Each copy list keeps its old entries and gains, at its end, the new copies of the entries corresponding to its key, in creation order. |
| `Instantiate.AddFirstChild` | language/rule.py:92-95 | One round of that loop on a non-empty list followed by the rest, with the same success condition, copies and allocation count as the whole loop. The copy lists grow as for the whole loop: old entries first, then the new copies in creation order. |
| `Instantiate.AddChild` | language/rule.py:93-95 | One round of that loop keeps the phase-two invariant, leaves what is already built in place, and hangs under the node's copy a copy of the successor with its whole subtree copied. It succeeds exactly when the successor and every node of its unfolding can be copied, and allocates one node for the successor plus one per unfolding entry. Each copy list keeps its old entries and gains, at its end, the new copies of the entries corresponding to its key, in creation order. |
| `Instantiate.AddTops` | language/rule.py:102-106 | Every listed top-level output node gets a copy with its whole subtree copied, hung under the root when the node has no correspondent. It succeeds exactly when every node of the unfolding of the listed nodes can be copied, and then allocates exactly one node per entry and grows each copy list by that key's count. Each copy list keeps its old entries and gains, at its end, the new copies of the entries corresponding to its key, in creation order. |
| `Instantiate.AddFirstTop` | language/rule.py:102-106 | One round of that loop on a non-empty list followed by the rest, with the same success condition, copies and allocation count as the whole loop. The copy lists grow as for the whole loop: old entries first, then the new copies in creation order. |
| `Instantiate.AddTop` | language/rule.py:103-106 | One round of that loop: the copy hangs under the root when the node has no correspondent, and the output pattern below the node is copied beneath it. It succeeds exactly when the node and every node of its unfolding can be copied, and allocates one node for it plus one per unfolding entry. Each copy list keeps its old entries and gains, at its end, the new copies of the entries corresponding to its key, in creation order. |
| `Instantiate.AddOutputGraph` | language/rule.py:97-106 | On success the state satisfies `Instantiates`, and every top-level output node has a copy with its whole subtree copied beneath it. That copy is recorded in `_cur_node_dict` under the node's correspondent when it has one, and hangs under the root with order -1 otherwise. Under `Instantiates`: every new node is a copy with the prescribed payload; every copy list is non-empty and holds copies of output nodes corresponding to its key; every new edge is either root to copy with order -1 or mirrors an output-pattern edge with its order; old nodes, edges and orders are kept. Phase two succeeds exactly when every node of the output pattern's unfolding from the root (`BuildPlan`) can be copied. It allocates exactly as many nodes as the unfolding has entries, so a node shared by two parents is copied twice. The list under each input node is as long as the number of unfolding entries corresponding to it. Each list holds exactly the copies of those entries (`FreshCopiesOf`), in creation order with increasing identifiers, which is the order lines 148-149 turn into sibling orders. |
| `Instantiate.CopiedBelowRecords` | language/rule.py:83-95 | Every output node in a copied subtree that has a correspondent has a non-empty copy list under that correspondent. |
| `Instantiate.BuildKeepsOldEdges` | language/rule.py:94-105 | Phase two adds no edge into an old node and no edge out of an old node other than the root: every such edge of the result was already there, with its order. |
| `Instantiate.BuildNodes` | language/rule.py:90-106 | Phase two keeps every node and brings in only the root and freshly allocated nodes. |
| `Instantiate.BuildPayloads` | language/rule.py:83-88 | Every node phase two allocates carries an output-pattern payload or the payload of a matched target node. |
| `Reattach.Rewire` | language/rule.py:136-154 | Rewiring a matched node with copies keeps the graph well formed, with payloads and allocation counter unchanged. |
| `Reattach.Rewired` | language/rule.py:138-153 | Before the matched node is removed, the moved and added edges keep the graph well formed, only copies join, and payloads and allocation counter are unchanged. |
| `Reattach.RewireNodes` | language/rule.py:149-154 | The matched node leaves the graph. Every other node stays, and only copies join. |
| `Reattach.RewireWiresPredecessors` | language/rule.py:140-149 | Every predecessor outside the matched region points at every copy. The copy at position i gets the old node's order plus i. |
| `Reattach.RewireWiresSuccessors` | language/rule.py:150-153 | Every copy points at every successor outside the matched region, with the order the old node's edge had. |
| `Reattach.RewireKeepsOldEdge` | language/rule.py:145-147 | An old out-edge of a boundary predecessor moves up by k-1 exactly when its order exceeded the old node's. Other old edges keep their order. |
| `Reattach.RewireOutEdgeOrigin` | language/rule.py:140-154 | After rewiring, an out-edge of a node that is not a copy is an old edge, or an edge from a boundary predecessor to a copy at the old order plus the copy's position. |
| `Reattach.RewireKeepsDistinctOrders` | language/rule.py:138-154 | Pairwise distinct out-edge orders of any node other than the old node and the copies stay pairwise distinct: the copies fill exactly the gap the shift opens. |
| `Reattach.RewireKeepsSiblingOrder` | language/rule.py:145-147 | Two surviving old siblings keep their relative order. |
| `Reattach.RewireAddsOnlyCopyEdges` | language/rule.py:148-153 | Every edge rewiring adds touches a copy. |
| `Reattach.RewireFrame` | language/rule.py:136-154 | Edges away from the old node, its boundary predecessors and the copies keep their order. |
| `Reattach.Collect` | language/rule.py:155-161 | A matched node without copies is removed exactly when it has no out-edge and either no in-edge or the root among its predecessors. Otherwise the graph is untouched. |
| `Reattach.Step` | language/rule.py:136-161 | One visit succeeds exactly when the node is still in the graph (networkx raises otherwise). Payloads and allocation counter are unchanged. |
| `Reattach.ReattachAll` | language/rule.py:136-161 | The loop fails only on a node no longer in the graph, and otherwise keeps the graph well formed with payloads unchanged. |
| `Reattach.ReattachAllSucceeds` | language/rule.py:136-161 | The loop succeeds whenever the visited nodes are distinct nodes of the graph, and only if every visited node is in the graph: a visit removes only its own node and adds only copies, which are never visited. |
| `Reattach.StepWiresCopies` | language/rule.py:137-149 | With the corrected lookup, a matched node with copies leaves the graph, and each of its boundary predecessors points at every copy at the old order plus the copy's position. |
| `Reattach.AsWrittenStep` | language/rule.py:136-161 | As written, a visit fails only on a node no longer in the graph. It adds no node and no edge, and keeps every surviving edge's order. The node stays, with the graph untouched, exactly when it has an out-edge, or an in-edge but not from the root. |
| `Reattach.AsWrittenReattachAll` | language/rule.py:136-161 | As written, phase three adds no node and no edge, so no copy from phase two ever joins the graph and boundary edges stay on the matched nodes. |
| `Reattach.AsWrittenStepDiffers` | language/rule.py:136-161 | The as-written and corrected visits agree on every matched node whose input node has no copies. For nodes with copies, the as-written visit keeps every copy not yet in the graph out of it; `StepWiresCopies` and `RewireWiresSuccessors` state what the corrected visit does there. |
| `Reattach.AsWrittenStepDropsCopies` | language/rule.py:137-161 | On the target `f(hello)` with `hello` matched and copied, the step as written leaves `hello` under `f` and the copy outside the graph. |
| `Reattach.StepKeepsDistinctOrders` | language/rule.py:136-161 | One visit keeps distinct out-edge orders distinct for every node that is not a copy. |
| `Reattach.StepKeepsOldEdges` | language/rule.py:136-161 | After one visit, an edge between two non-copies was already there, and two such siblings keep their relative order. |
| `Reattach.StepNodes` | language/rule.py:136-161 | One visit removes only the visited node, removes it when it has copies, and adds only copies. |
| `Reattach.ReattachKeepsDistinctOrders` | language/rule.py:136-161 | Phase three keeps distinct out-edge orders distinct for every node that is not a copy. |
| `Reattach.ReattachKeepsOldEdges` | language/rule.py:136-161 | Phase three adds no edge between two non-copies and keeps the relative order of surviving siblings among them. |
| `Reattach.ReattachNodes` | language/rule.py:136-161 | Phase three removes only visited nodes, removes every visited node with copies, and adds only copies. |
| `RuleEngine.Apply` | language/rule.py:108-161 | A successful application leaves a well-formed graph whose allocation counter has not gone back; `ApplySucceeds` states when it succeeds. |
| `RuleEngine.ApplySucceeds` | language/rule.py:121-161 | An application succeeds when phase one's mirrored edges are distinct target edges, every node of the output unfolding can be copied, and every matched target node is in the target. It succeeds only when the first two conditions hold and every matched target node is in the target or is the root. |
| `RuleEngine.ApplyKeepsOldEdges` | language/rule.py:108-161 | An application adds no edge between two nodes the target already had. Two surviving siblings among them keep their relative order. |
| `RuleEngine.ApplyKeepsDistinctOrders` | language/rule.py:108-161 | Every old node other than the root keeps pairwise distinct sibling orders. |
| `RuleEngine.ApplyNodes` | language/rule.py:108-161 | Unmatched nodes survive. Every new node is the root or a freshly allocated copy. A matched node whose input-pattern node received copies is gone. |
| `RuleEngine.ApplyRemovesReplaced` | language/rule.py:85-161 | A matched target node is gone whenever its input node is the correspondent of an output node reachable from the output root. |
| `RuleEngine.ApplyNewPayloads` | language/rule.py:83-161 | Every node an application brings in, other than the root, carries an output-pattern payload or the payload of a matched target node. |

## Left out

- The `deepcopy_graph=True` path (`_copy_apply_graph` is an empty stub). Only the in-place rewrite is modelled.
- The `Node` class and networkx. Nodes are ids, payloads a map, and edges a map to their `order`. Node identity is id equality.
- Function and constraint metadata (`_funcs_in`, `_constraints`, and so on) and `RuleSearch`: `apply` does not use them.
- Exceptions: an error is returned as `Err` without the partly rewritten graph that the in-place Python code leaves behind.
- Recursion through a pattern is bounded by the pattern's node count, where Python is bounded by its interpreter stack.
  - A cycle below the input root fails in phase one when an edge is removed a second time: networkx raises, and the model returns `MissingEdge`.
  - A cycle in the output pattern makes phase two recurse until Python raises `RecursionError`; the model returns `RecursionLimit`.
  - An acyclic pattern deeper than Python's stack limit fails in Python but not in the model. That the node-count bound suffices for every acyclic pattern is not proved.
- `_create_node_dict` iterates a Python set of payloads. The model picks payloads in an arbitrary order, and the contract fixes the result whatever the order.
- The predecessor loop of lines 140-149 is modelled in one step for all predecessors. Each predecessor only touches its own out-edges, so the order of visits does not matter.
- Reattach.ReattachAll: the wiring of copies is stated per visit (`StepWiresCopies`), not for the end of the loop, where later visits may shift it again.
- RuleEngine.ApplyKeepsDistinctOrders: the root is excluded. Phase two hangs every top-level output node without correspondent under the root with the same order -1, so the root's orders can repeat.
- RuleEngine.ApplyNodes: which input-pattern nodes receive copies is stated through phase two's copy lists. `ApplyRemovesReplaced` states it through reachability in the output pattern, as an implication only: it does not say that other matched nodes survive.
- RuleEngine.ApplySucceeds: a match that sends an input node to the root while the root is not in the target is left open. Whether it succeeds depends on whether phase two hangs a copy under the root first.
- Reattach.ReattachAllSucceeds: the sufficient condition asks for distinct visited nodes. A node visited twice succeeds only if the first visit left it in place; the visit order of `apply` never repeats a node.
- Reattach.RewireKeepsDistinctOrders: stated for nodes that are not copies. A copy's own out-edges come from the output pattern and from the old node's successors, and those orders may collide.

## Findings

| source | as written | input that shows it | evidently intended | confidence | as-written member | corrected member |
|---|---|---|---|---|---|---|
| language/rule.py:137-138 | `graph_node in cur_node_dict` tests a target node against keys that are input-pattern nodes (line 85). Nodes compare by identity, so the test never holds and every matched node takes the collection branch. | Target `f(hello)` under the root, with `hello` (node 6) matched by input node 1 and copied to node 7 (`FindingGraph`). As written, 6 stays under `f` and copy 7 never joins the graph. | Look up the copies under `reverse_transform_dict[graph_node]` and put them in the matched node's place. | high; not executed | `Reattach.AsWrittenStepDropsCopies` | `Reattach.StepWiresCopies` |

=== FILE: correspondence.dfy ===
/** The correspondence between a rule's input and output patterns
    (`Rule._create_node_dict`): output nodes are paired with the input node that
    carries the same free payload. */
module Correspondence {
  import opened Results
  import opened OrderedGraph

  /** `forward` is `node_dict` (input node -> its output nodes, in output-node
      order); `backward` is `reverse_node_dict` (output node -> its input node). */
  datatype NodeDicts = NodeDicts(forward: map<NodeId, seq<NodeId>>, backward: map<NodeId, NodeId>)

  /** The nodes of `ns` whose payload is `obj`, in their order in `ns`. */
  function WithPayload(ns: seq<NodeId>, value: map<NodeId, Payload>, obj: Payload): seq<NodeId>
    requires forall n | n in ns :: n in value
  {
    if |ns| == 0 then []
    else WithPayload(ns[..|ns| - 1], value, obj) + (if value[ns[|ns| - 1]] == obj then [ns[|ns| - 1]] else [])
  }

  /** The nodes of `ns` whose payload is not in `done`, in their order in `ns`. */
  function WithoutPayloads(ns: seq<NodeId>, value: map<NodeId, Payload>, done: set<Payload>): seq<NodeId>
    requires forall n | n in ns :: n in value
  {
    if |ns| == 0 then []
    else WithoutPayloads(ns[..|ns| - 1], value, done) + (if value[ns[|ns| - 1]] !in done then [ns[|ns| - 1]] else [])
  }

  /** The last node of `ns` carrying `obj`: later nodes overwrite earlier ones in
      the payload index the builder keeps. */
  function LastWithPayload(ns: seq<NodeId>, value: map<NodeId, Payload>, obj: Payload): Option<NodeId>
    requires forall n | n in ns :: n in value
  {
    if |ns| == 0 then None
    else if value[ns[|ns| - 1]] == obj then Some(ns[|ns| - 1])
    else LastWithPayload(ns[..|ns| - 1], value, obj)
  }

  /** The input-pattern node the builder pairs with payload `obj`, if any. */
  function InNodeOf(pin: Pattern, obj: Payload): Option<NodeId>
    requires ValidPattern(pin)
  {
    LastWithPayload(PayloadNodes(pin), pin.value, obj)
  }

  lemma {:induction false} WithPayloadMembers(ns: seq<NodeId>, value: map<NodeId, Payload>, obj: Payload)
    requires forall n | n in ns :: n in value
    ensures forall o :: o in WithPayload(ns, value, obj) <==> o in ns && value[o] == obj
  {
    if |ns| > 0 {
      WithPayloadMembers(ns[..|ns| - 1], value, obj);
      assert forall o :: o in ns <==> o in ns[..|ns| - 1] || o == ns[|ns| - 1] by {
        assert ns == ns[..|ns| - 1] + [ns[|ns| - 1]];
      }
    }
  }

  lemma {:induction false} WithoutPayloadsMembers(ns: seq<NodeId>, value: map<NodeId, Payload>, done: set<Payload>)
    requires forall n | n in ns :: n in value
    ensures forall o :: o in WithoutPayloads(ns, value, done) <==> o in ns && value[o] !in done
  {
    if |ns| > 0 {
      WithoutPayloadsMembers(ns[..|ns| - 1], value, done);
      assert forall o :: o in ns <==> o in ns[..|ns| - 1] || o == ns[|ns| - 1] by {
        assert ns == ns[..|ns| - 1] + [ns[|ns| - 1]];
      }
    }
  }

  /** Dropping the payloads of `done` does not change which nodes carry `obj`. */
  lemma {:induction false} WithPayloadIgnoresOthers(ns: seq<NodeId>, value: map<NodeId, Payload>, done: set<Payload>, obj: Payload)
    requires forall n | n in ns :: n in value
    requires obj !in done
    ensures (WithoutPayloadsMembers(ns, value, done);
             WithPayload(WithoutPayloads(ns, value, done), value, obj) == WithPayload(ns, value, obj))
  {
    WithoutPayloadsMembers(ns, value, done);
    if |ns| > 0 {
      var init := ns[..|ns| - 1];
      var w := WithoutPayloads(init, value, done);
      WithoutPayloadsMembers(init, value, done);
      WithPayloadIgnoresOthers(init, value, done, obj);
      var last := ns[|ns| - 1];
      if value[last] !in done {
        assert (w + [last])[..|w + [last]| - 1] == w;
        assert WithPayload(w + [last], value, obj) == WithPayload(w, value, obj) + (if value[last] == obj then [last] else []);
      } else {
        assert WithoutPayloads(ns, value, done) == w;
      }
    }
  }

  lemma {:induction false} WithoutNoPayloads(ns: seq<NodeId>, value: map<NodeId, Payload>)
    requires forall n | n in ns :: n in value
    ensures WithoutPayloads(ns, value, {}) == ns
  {
    if |ns| > 0 {
      WithoutNoPayloads(ns[..|ns| - 1], value);
      assert ns == ns[..|ns| - 1] + [ns[|ns| - 1]];
    }
  }

  /** Removing the nodes carrying `obj` from the unmatched list extends `done` by `obj`. */
  lemma {:induction false} WithoutPayloadsStep(ns: seq<NodeId>, value: map<NodeId, Payload>, done: set<Payload>, obj: Payload)
    requires forall n | n in ns :: n in value
    ensures (WithoutPayloadsMembers(ns, value, done);
             WithoutPayloads(WithoutPayloads(ns, value, done), value, {obj}) == WithoutPayloads(ns, value, done + {obj}))
  {
    WithoutPayloadsMembers(ns, value, done);
    if |ns| > 0 {
      var init := ns[..|ns| - 1];
      var w := WithoutPayloads(init, value, done);
      WithoutPayloadsMembers(init, value, done);
      WithoutPayloadsStep(init, value, done, obj);
      var last := ns[|ns| - 1];
      if value[last] !in done {
        assert (w + [last])[..|w + [last]| - 1] == w;
        assert WithoutPayloads(w + [last], value, {obj}) == WithoutPayloads(w, value, {obj}) + (if value[last] != obj then [last] else []);
      } else {
        assert WithoutPayloads(ns, value, done) == w;
      }
    }
  }

  lemma {:induction false} LastWithPayloadFacts(ns: seq<NodeId>, value: map<NodeId, Payload>, obj: Payload)
    requires forall n | n in ns :: n in value
    ensures LastWithPayload(ns, value, obj).Some? <==> exists o | o in ns :: value[o] == obj
    ensures LastWithPayload(ns, value, obj).Some? ==>
              LastWithPayload(ns, value, obj).value in ns && value[LastWithPayload(ns, value, obj).value] == obj
  {
    if |ns| > 0 {
      LastWithPayloadFacts(ns[..|ns| - 1], value, obj);
      assert ns == ns[..|ns| - 1] + [ns[|ns| - 1]];
    }
  }

  /** `d` pairs output and input nodes exactly by the payloads the two patterns
      share: an output node whose payload is shared maps back to the input node
      indexed under that payload, and that input node lists every output node
      carrying it, in output-pattern order. */
  ghost predicate IsNodeDicts(pin: Pattern, pout: Pattern, d: NodeDicts)
    requires ValidPattern(pin) && ValidPattern(pout)
  {
    && (forall obj | obj in pin.objs * pout.objs :: InNodeOf(pin, obj).Some?)
    && (forall o :: o in d.backward <==> o in PayloadNodes(pout) && pout.value[o] in pin.objs * pout.objs)
    && (forall o | o in d.backward :: d.backward[o] == InNodeOf(pin, pout.value[o]).value)
    && d.forward.Keys == (set obj | obj in pin.objs * pout.objs :: InNodeOf(pin, obj).value)
    && (forall obj | obj in pin.objs * pout.objs ::
          d.forward[InNodeOf(pin, obj).value] == WithPayload(PayloadNodes(pout), pout.value, obj))
  }

  /** `graph_in_node_dict`: each payload mapped to the last node of `ns` carrying it. */
  method IndexByPayload(ns: seq<NodeId>, value: map<NodeId, Payload>) returns (index: map<Payload, NodeId>)
    requires forall n | n in ns :: n in value
    ensures forall obj :: obj in index <==> LastWithPayload(ns, value, obj).Some?
    ensures forall obj | obj in index :: index[obj] == LastWithPayload(ns, value, obj).value
  {
    index := map[];
    var i := 0;
    while i < |ns|
      invariant 0 <= i <= |ns|
      invariant forall obj :: obj in index <==> LastWithPayload(ns[..i], value, obj).Some?
      invariant forall obj | obj in index :: index[obj] == LastWithPayload(ns[..i], value, obj).value
    {
      assert ns[..i + 1][..i] == ns[..i];
      index := index[value[ns[i]] := ns[i]];
      i := i + 1;
    }
    assert ns[..|ns|] == ns;
  }

  /** One round of the builder: the unmatched nodes carrying `obj`, each paired in
      `backward` with the input node indexed under `obj`; a lookup of a payload the
      index lacks fails. */
  method PairPayload(unmatched: seq<NodeId>, value: map<NodeId, Payload>, obj: Payload,
                     index: map<Payload, NodeId>, backward: map<NodeId, NodeId>)
    returns (r: Result<(seq<NodeId>, map<NodeId, NodeId>)>)
    requires forall n | n in unmatched :: n in value
    ensures r.Err? <==> obj !in index && exists o | o in unmatched :: value[o] == obj
    ensures r.Ok? ==> r.value.0 == WithPayload(unmatched, value, obj)
    ensures r.Ok? ==> forall o :: o in r.value.1 <==> o in backward || (o in unmatched && value[o] == obj)
    ensures r.Ok? ==> forall o | o in r.value.1 ::
                        r.value.1[o] == if o in unmatched && value[o] == obj then index[obj] else backward[o]
  {
    var objNodes: seq<NodeId> := [];
    var pairs := backward;
    var j := 0;
    while j < |unmatched|
      invariant 0 <= j <= |unmatched|
      invariant objNodes == WithPayload(unmatched[..j], value, obj)
      invariant forall o | o in unmatched[..j] :: value[o] != obj || obj in index
      invariant forall o :: o in pairs <==> o in backward || (o in unmatched[..j] && value[o] == obj)
      invariant forall o | o in pairs ::
                  pairs[o] == if o in unmatched[..j] && value[o] == obj then index[obj] else backward[o]
    {
      assert unmatched[..j + 1][..j] == unmatched[..j];
      assert unmatched[..j + 1] == unmatched[..j] + [unmatched[j]];
      var node := unmatched[j];
      if value[node] == obj {
        if obj !in index {
          return Err(MissingKey);
        }
        pairs := pairs[node := index[obj]];
        objNodes := objNodes + [node];
      }
      j := j + 1;
    }
    assert unmatched[..|unmatched|] == unmatched;
    return Ok((objNodes, pairs));
  }

  /** `_create_node_dict`: index the input pattern's nodes by payload (later nodes
      win), then, for each payload common to both patterns, collect the still
      unmatched output nodes carrying it, pair each with the indexed input node,
      and strike them from the unmatched list. The set of common payloads is
      visited in an arbitrary order, as a Python set is. */
  method CreateNodeDict(pin: Pattern, pout: Pattern) returns (r: Result<NodeDicts>)
    requires ValidPattern(pin) && ValidPattern(pout)
    ensures r.Ok? <==> forall obj | obj in pin.objs * pout.objs :: InNodeOf(pin, obj).Some?
    ensures r.Ok? ==> IsNodeDicts(pin, pout, r.value)
  {
    var inNodes := PayloadNodes(pin);
    var outNodes := PayloadNodes(pout);
    var index := IndexByPayload(inNodes, pin.value);

    var common := pin.objs * pout.objs;
    var unmatched := outNodes;
    WithoutNoPayloads(outNodes, pout.value);
    var forward: map<NodeId, seq<NodeId>> := map[];
    var backward: map<NodeId, NodeId> := map[];
    var remaining := common;
    assert common - remaining == {};
    while remaining != {}
      invariant remaining <= common
      invariant PairedSoFar(outNodes, pout.value, index, common - remaining, unmatched, forward, backward)
      decreases remaining
    {
      var obj :| obj in remaining;
      var done := common - remaining;
      WithoutPayloadsMembers(outNodes, pout.value, done);
      var paired := PairPayload(unmatched, pout.value, obj, index, backward);
      if paired.Err? {
        LastWithPayloadFacts(inNodes, pin.value, obj);
        return Err(MissingKey);
      }
      if obj !in index {
        return Err(MissingKey);
      }
      // distinct payloads have distinct indexed nodes
      LastWithPayloadFacts(inNodes, pin.value, obj);
      forall o | o in done
        ensures index[o] != index[obj]
      {
        LastWithPayloadFacts(inNodes, pin.value, o);
      }
      PairedSoFarStep(outNodes, pout.value, index, done, unmatched, forward, backward, obj, paired.value.0, paired.value.1);
      forward := forward[index[obj] := paired.value.0];
      backward := paired.value.1;
      unmatched := WithoutPayloads(unmatched, pout.value, {obj});
      remaining := remaining - {obj};
      assert common - remaining == done + {obj};
    }
    r := Ok(NodeDicts(forward, backward));
  }

  /** The builder's state once the payloads of `done` are handled: `unmatched`
      holds the output nodes with other payloads, `backward` pairs the rest with
      their indexed input nodes, and `forward` lists them under those nodes. */
  ghost predicate PairedSoFar(outNodes: seq<NodeId>, value: map<NodeId, Payload>, index: map<Payload, NodeId>,
                              done: set<Payload>, unmatched: seq<NodeId>,
                              forward: map<NodeId, seq<NodeId>>, backward: map<NodeId, NodeId>)
  {
    && (forall n | n in outNodes :: n in value)
    && unmatched == WithoutPayloads(outNodes, value, done)
    && (forall obj | obj in done :: obj in index)
    && (forall o :: o in backward <==> o in outNodes && value[o] in done)
    && (forall o | o in backward :: backward[o] == index[value[o]])
    && forward.Keys == (set obj | obj in done :: index[obj])
    && (forall obj | obj in done :: forward[index[obj]] == WithPayload(outNodes, value, obj))
  }

  /** One round of the builder, for a payload the index knows and whose indexed
      node no earlier payload shares, keeps `PairedSoFar` with `obj` done. */
  lemma PairedSoFarStep(outNodes: seq<NodeId>, value: map<NodeId, Payload>, index: map<Payload, NodeId>,
                        done: set<Payload>, unmatched: seq<NodeId>,
                        forward: map<NodeId, seq<NodeId>>, backward: map<NodeId, NodeId>,
                        obj: Payload, objNodes: seq<NodeId>, backward': map<NodeId, NodeId>)
    requires PairedSoFar(outNodes, value, index, done, unmatched, forward, backward)
    requires obj !in done && obj in index
    requires forall o | o in done :: index[o] != index[obj]
    requires forall n | n in unmatched :: n in value
    requires objNodes == WithPayload(unmatched, value, obj)
    requires forall o :: o in backward' <==> o in backward || (o in unmatched && value[o] == obj)
    requires forall o | o in backward' :: backward'[o] == if o in unmatched && value[o] == obj then index[obj] else backward[o]
    ensures PairedSoFar(outNodes, value, index, done + {obj}, WithoutPayloads(unmatched, value, {obj}),
                        forward[index[obj] := objNodes], backward')
  {
    WithoutPayloadsMembers(outNodes, value, done);
    WithPayloadIgnoresOthers(outNodes, value, done, obj);
    WithoutPayloadsStep(outNodes, value, done, obj);
    var forward' := forward[index[obj] := objNodes];
    assert forward'.Keys == (set o | o in done + {obj} :: index[o]);
    forall o | o in done + {obj}
      ensures forward'[index[o]] == WithPayload(outNodes, value, o)
    {
      if o != obj {
        assert index[o] != index[obj];
      }
    }
  }

  /** Every paired output node maps to an input node with the same payload, and
      that payload is one both patterns declare free. */
  lemma BackwardKeepsPayload(pin: Pattern, pout: Pattern, d: NodeDicts)
    requires ValidPattern(pin) && ValidPattern(pout) && IsNodeDicts(pin, pout, d)
    ensures forall o | o in d.backward ::
              && d.backward[o] in PayloadNodes(pin)
              && pin.value[d.backward[o]] == pout.value[o]
              && pout.value[o] in pin.objs * pout.objs
  {
    forall o | o in d.backward
      ensures d.backward[o] in PayloadNodes(pin) && pin.value[d.backward[o]] == pout.value[o]
    {
      LastWithPayloadFacts(PayloadNodes(pin), pin.value, pout.value[o]);
    }
  }

  /** A key of `node_dict` is the input node indexed under its own payload, and
      that payload is shared by both patterns. */
  lemma ForwardKeyFacts(pin: Pattern, pout: Pattern, d: NodeDicts, i: NodeId)
    requires ValidPattern(pin) && ValidPattern(pout) && IsNodeDicts(pin, pout, d)
    requires i in d.forward
    ensures i in PayloadNodes(pin) && pin.value[i] in pin.objs * pout.objs
    ensures i == InNodeOf(pin, pin.value[i]).value
    ensures d.forward[i] == WithPayload(PayloadNodes(pout), pout.value, pin.value[i])
  {
    var obj :| obj in pin.objs * pout.objs && i == InNodeOf(pin, obj).value;
    LastWithPayloadFacts(PayloadNodes(pin), pin.value, obj);
  }

  /** `o` is listed under `i` in `node_dict` exactly when `reverse_node_dict`
      maps `o` back to `i`; so each output node is listed under at most one key. */
  lemma ForwardInvertsBackward(pin: Pattern, pout: Pattern, d: NodeDicts)
    requires ValidPattern(pin) && ValidPattern(pout) && IsNodeDicts(pin, pout, d)
    ensures forall i, o | i in d.forward :: o in d.forward[i] <==> o in d.backward && d.backward[o] == i
    ensures forall i, j, o | i in d.forward && j in d.forward && o in d.forward[i] && o in d.forward[j] :: i == j
  {
    forall i, o | i in d.forward
      ensures o in d.forward[i] <==> o in d.backward && d.backward[o] == i
    {
      ForwardKeyFacts(pin, pout, d, i);
      WithPayloadMembers(PayloadNodes(pout), pout.value, pin.value[i]);
      if o in d.backward {
        LastWithPayloadFacts(PayloadNodes(pin), pin.value, pout.value[o]);
      }
    }
    forall i, j, o | i in d.forward && j in d.forward && o in d.forward[i] && o in d.forward[j]
      ensures i == j
    {
      assert d.backward[o] == i && d.backward[o] == j;
    }
  }

  /** The root sentinel is never paired: both enumerations skip the first node. */
  lemma RootNeverPaired(pin: Pattern, pout: Pattern, d: NodeDicts)
    requires ValidPattern(pin) && ValidPattern(pout) && IsNodeDicts(pin, pout, d)
    ensures Root !in d.forward && Root !in d.backward
    ensures forall o | o in d.backward :: d.backward[o] != Root
    ensures forall i, o | i in d.forward && o in d.forward[i] :: o != Root
  {
    assert Root !in PayloadNodes(pout) by {
      assert forall k | 0 <= k < |PayloadNodes(pout)| :: PayloadNodes(pout)[k] == pout.nodes[k + 1];
    }
    assert Root !in PayloadNodes(pin) by {
      assert forall k | 0 <= k < |PayloadNodes(pin)| :: PayloadNodes(pin)[k] == pin.nodes[k + 1];
    }
    BackwardKeepsPayload(pin, pout, d);
    ForwardInvertsBackward(pin, pout, d);
    if Root in d.forward {
      ForwardKeyFacts(pin, pout, d, Root);
    }
  }

  /** The set of nodes of `ns` carrying `obj`. */
  ghost function Carrying(ns: seq<NodeId>, value: map<NodeId, Payload>, obj: Payload): set<NodeId>
    requires forall n | n in ns :: n in value
  {
    set o | o in ns && value[o] == obj
  }

  lemma {:induction false} WithPayloadCount(ns: seq<NodeId>, value: map<NodeId, Payload>, obj: Payload)
    requires forall n | n in ns :: n in value
    requires forall a, b | 0 <= a < b < |ns| :: ns[a] != ns[b]
    ensures |WithPayload(ns, value, obj)| == |Carrying(ns, value, obj)|
  {
    if |ns| > 0 {
      var init := ns[..|ns| - 1];
      var last := ns[|ns| - 1];
      WithPayloadCount(init, value, obj);
      assert ns == init + [last];
      assert last !in init;
      if value[last] == obj {
        assert Carrying(ns, value, obj) == Carrying(init, value, obj) + {last};
      } else {
        assert Carrying(ns, value, obj) == Carrying(init, value, obj);
      }
    }
  }

  /** A payload carried by k output nodes yields a `node_dict` list of length k
      holding exactly those nodes; a payload free in only one of the patterns pairs
      nothing. */
  lemma ForwardListsCountCopies(pin: Pattern, pout: Pattern, d: NodeDicts)
    requires ValidPattern(pin) && ValidPattern(pout) && IsNodeDicts(pin, pout, d)
    ensures forall i | i in d.forward :: i in PayloadNodes(pin) && i in pin.value
    ensures forall i | i in d.forward ::
              && pin.value[i] in pin.objs * pout.objs
              && |d.forward[i]| == |Carrying(PayloadNodes(pout), pout.value, pin.value[i])|
              && (forall o :: o in d.forward[i] <==> o in PayloadNodes(pout) && pout.value[o] == pin.value[i])
    ensures forall o | o in PayloadNodes(pout) && pout.value[o] !in pin.objs * pout.objs :: o !in d.backward
  {
    var outNodes := PayloadNodes(pout);
    assert forall a, b | 0 <= a < b < |outNodes| :: outNodes[a] != outNodes[b] by {
      assert forall k | 0 <= k < |outNodes| :: outNodes[k] == pout.nodes[k + 1];
    }
    forall i | i in d.forward
      ensures i in PayloadNodes(pin) && i in pin.value && pin.value[i] in pin.objs * pout.objs
      ensures |d.forward[i]| == |Carrying(outNodes, pout.value, pin.value[i])|
      ensures forall o :: o in d.forward[i] <==> o in outNodes && pout.value[o] == pin.value[i]
    {
      ForwardKeyFacts(pin, pout, d, i);
      WithPayloadCount(outNodes, pout.value, pin.value[i]);
      WithPayloadMembers(outNodes, pout.value, pin.value[i]);
    }
  }
}

=== FILE: graph.dfy ===
/** Rooted graphs whose edges carry an integer `order`: the target graph a rule
    rewrites, and the immutable pattern graphs a rule is built from. */
module OrderedGraph {
  import opened Results

  /** Node identities; `Root` stands for the "root_node" sentinel. */
  type NodeId = nat
  const Root: NodeId := 0

  /** The symbolic payload of a node: a variable name, a constant, a function symbol, a value. */
  type Payload = string

  type Edge = (NodeId, NodeId)

  /** A target graph. `value` holds the payload of every node allocated so far,
      whether or not it is currently in the graph; `nodes` is graph membership;
      the keys of `order` are the edges; `next` is the next identity to allocate. */
  datatype Graph = Graph(nodes: set<NodeId>, value: map<NodeId, Payload>, order: map<Edge, int>, next: NodeId)

  ghost predicate Valid(g: Graph) {
    && Root < g.next
    && Root !in g.value
    && (forall n | n in g.value :: n < g.next)
    && (forall n | n in g.nodes :: n == Root || n in g.value)
    && (forall e | e in g.order :: e.0 in g.nodes && e.1 in g.nodes)
  }

  /** A node was allocated before the graph reached this state (the root counts). */
  predicate Allocated(g: Graph, n: NodeId) {
    n == Root || n in g.value
  }

  predicate HasOutEdge(g: Graph, n: NodeId) {
    exists e | e in g.order :: e.0 == n
  }

  predicate HasInEdge(g: Graph, n: NodeId) {
    exists e | e in g.order :: e.1 == n
  }

  /** The order values on the out-edges of `p` are pairwise distinct. */
  ghost predicate DistinctOrders(g: Graph, p: NodeId) {
    forall a, b | (p, a) in g.order && (p, b) in g.order && a != b :: g.order[(p, a)] != g.order[(p, b)]
  }

  /** Allocates a node carrying `v`; like a fresh `Node(v)`, it joins the graph only
      when an edge touches it. */
  function NewNode(g: Graph, v: Payload): (r: (Graph, NodeId))
    requires Valid(g)
    ensures Valid(r.0)
    ensures r.1 !in g.value && r.1 != Root && r.1 == g.next
    ensures r.0.value == g.value[r.1 := v]
    ensures r.0.nodes == g.nodes && r.0.order == g.order && r.0.next == r.1 + 1
  {
    (Graph(g.nodes, g.value[g.next := v], g.order, g.next + 1), g.next)
  }

  /** Adds the edge `a -> b` (and its endpoints) with the given order; an existing
      edge keeps its place and takes the new order. */
  function AddEdge(g: Graph, a: NodeId, b: NodeId, o: int): (r: Graph)
    requires Valid(g) && Allocated(g, a) && Allocated(g, b)
    ensures Valid(r)
    ensures r.nodes == g.nodes + {a, b} && r.value == g.value && r.next == g.next
    ensures r.order.Keys == g.order.Keys + {(a, b)} && r.order[(a, b)] == o
    ensures forall e | e in g.order && e != (a, b) :: r.order[e] == g.order[e]
  {
    Graph(g.nodes + {a, b}, g.value, g.order[(a, b) := o], g.next)
  }

  /** Removes the edge `a -> b`; fails when the graph lacks it. */
  function RemoveEdge(g: Graph, a: NodeId, b: NodeId): (r: Result<Graph>)
    requires Valid(g)
    ensures r.Ok? <==> (a, b) in g.order
    ensures r.Ok? ==> Valid(r.value) && r.value.nodes == g.nodes && r.value.value == g.value
                      && r.value.next == g.next
    ensures r.Ok? ==> r.value.order.Keys == g.order.Keys - {(a, b)}
    ensures r.Ok? ==> forall e | e in r.value.order :: r.value.order[e] == g.order[e]
  {
    if (a, b) in g.order then Ok(Graph(g.nodes, g.value, g.order - {(a, b)}, g.next))
    else Err(MissingEdge)
  }

  /** Removes `x` and every edge that touches it. */
  function RemoveNode(g: Graph, x: NodeId): (r: Graph)
    requires Valid(g)
    ensures Valid(r)
    ensures r.nodes == g.nodes - {x} && r.value == g.value && r.next == g.next
    ensures forall e :: e in r.order <==> e in g.order && e.0 != x && e.1 != x
    ensures forall e | e in r.order :: r.order[e] == g.order[e]
  {
    Graph(g.nodes - {x}, g.value, map e | e in g.order && e.0 != x && e.1 != x :: g.order[e], g.next)
  }

  /** A pattern graph as the parser produces it: nodes in insertion order with the
      root sentinel first, successor lists in insertion order, and the set of free
      variable/constant payloads it mentions. */
  datatype Pattern = Pattern(
    nodes: seq<NodeId>,
    value: map<NodeId, Payload>,
    succ: map<NodeId, seq<NodeId>>,
    order: map<Edge, int>,
    objs: set<Payload>)

  ghost predicate ValidPattern(p: Pattern) {
    && |p.nodes| >= 1
    && p.nodes[0] == Root
    && (forall i, j | 0 <= i < j < |p.nodes| :: p.nodes[i] != p.nodes[j])
    && (forall i | 1 <= i < |p.nodes| :: p.nodes[i] in p.value)
    && (forall u, v | u in p.succ && v in p.succ[u] :: (u, v) in p.order)
  }

  /** The successors of `u`, in insertion order. */
  function Successors(p: Pattern, u: NodeId): seq<NodeId> {
    if u in p.succ then p.succ[u] else []
  }

  /** The nodes the correspondence enumerates: every node but the first (the root). */
  function PayloadNodes(p: Pattern): seq<NodeId> {
    if |p.nodes| == 0 then [] else p.nodes[1..]
  }
}

=== FILE: instantiate.dfy ===
/** Phase two of `Rule.apply` (`_add_output_graph`, `_add_output_graph_rec`,
    `_copy_output_node`): add to the target a fresh copy of the output pattern. */
module Instantiate {
  import opened Results
  import opened OrderedGraph

  /** The state phase two threads through its recursion: the graph under
      transformation, `_cur_node_dict` (input-pattern node -> the copies made for
      it, in creation order), and `origin`, which records for each copy the
      output-pattern node it instantiates. */
  datatype Build = Build(graph: Graph, copies: map<NodeId, seq<NodeId>>, origin: map<NodeId, NodeId>)

  /** `s'` only adds to `s`: payloads, nodes, edges with their orders, and origins survive. */
  ghost predicate Extends(s: Build, s': Build) {
    && (forall n | n in s.graph.value :: n in s'.graph.value && s'.graph.value[n] == s.graph.value[n])
    && s.graph.nodes <= s'.graph.nodes
    && (forall e | e in s.graph.order :: e in s'.graph.order && s'.graph.order[e] == s.graph.order[e])
    && (forall c | c in s.origin :: c in s'.origin && s'.origin[c] == s.origin[c])
    && s.graph.next <= s'.graph.next
  }

  /** The copy `c` carries the payload the rule prescribes: the matched target
      node's payload when its output node has a correspondent, recorded among
      that input node's copies; otherwise the output node's own payload. */
  ghost predicate CopyPayloadOk(pout: Pattern, backward: map<NodeId, NodeId>, m: map<NodeId, NodeId>,
                                g0: Graph, s: Build, c: NodeId)
    requires c in s.graph.value
    requires c in s.origin
  {
    var o := s.origin[c];
    if o in backward then
      && backward[o] in m && m[backward[o]] in g0.value
      && s.graph.value[c] == g0.value[m[backward[o]]]
      && backward[o] in s.copies && c in s.copies[backward[o]]
    else
      o in pout.value && s.graph.value[c] == pout.value[o]
  }

  /** An edge added by phase two either hangs a copy of a top-level output node
      without correspondent under the root with order -1, or mirrors an
      output-pattern edge between the two copies' origins with that edge's order. */
  ghost predicate NewEdgeOk(pout: Pattern, backward: map<NodeId, NodeId>, s: Build, e: Edge)
    requires e in s.graph.order
  {
    && e.1 in s.origin
    && if e.0 == Root then
         && s.origin[e.1] in Successors(pout, Root) && s.origin[e.1] !in backward
         && s.graph.order[e] == -1
       else
         && e.0 in s.origin
         && s.origin[e.1] in Successors(pout, s.origin[e.0])
         && (s.origin[e.0], s.origin[e.1]) in pout.order
         && s.graph.order[e] == pout.order[(s.origin[e.0], s.origin[e.1])]
  }

  /** The copies made so far are exactly the nodes allocated since `g0`. */
  ghost predicate OriginsFresh(g0: Graph, s: Build) {
    && (forall c :: c in s.origin <==> c in s.graph.value && c !in g0.value)
    && (forall c | c in s.origin :: c >= g0.next)
  }

  ghost predicate PayloadsOk(pout: Pattern, backward: map<NodeId, NodeId>, m: map<NodeId, NodeId>, g0: Graph, s: Build) {
    forall c | c in s.origin && c in s.graph.value :: CopyPayloadOk(pout, backward, m, g0, s, c)
  }

  /** Every list of `_cur_node_dict` is non-empty and holds copies of output nodes
      whose correspondent is its key. */
  ghost predicate CopiesOk(backward: map<NodeId, NodeId>, s: Build) {
    forall src | src in s.copies ::
      && |s.copies[src]| > 0
      && forall c | c in s.copies[src] :: c in s.origin && s.origin[c] in backward && backward[s.origin[c]] == src
  }

  /** The only nodes phase two brings into the graph are the root and copies. */
  ghost predicate NodesOk(g0: Graph, s: Build) {
    forall n | n in s.graph.nodes :: n in g0.nodes || n == Root || n in s.origin
  }

  ghost predicate EdgesOk(pout: Pattern, backward: map<NodeId, NodeId>, g0: Graph, s: Build) {
    forall e | e in s.graph.order && e !in g0.order :: NewEdgeOk(pout, backward, s, e)
  }

  /** What holds of the build state at every step of phase two started from `g0`. */
  ghost predicate Instantiates(pout: Pattern, backward: map<NodeId, NodeId>, m: map<NodeId, NodeId>,
                               g0: Graph, s: Build)
  {
    && Valid(g0) && Valid(s.graph)
    && (forall k | k in m :: Allocated(g0, m[k]))
    && Extends(Build(g0, map[], map[]), s)
    && OriginsFresh(g0, s)
    && PayloadsOk(pout, backward, m, g0, s)
    && CopiesOk(backward, s)
    && NodesOk(g0, s)
    && EdgesOk(pout, backward, g0, s)
  }

  /** Copy `c` instantiates output node `o`, and the whole unfolding of the
      output pattern below `o` is copied beneath it: every successor of `o` has
      a copy hung under `c` whose own subtree is copied, the unfolding ending
      within `depth` levels. */
  ghost predicate CopiedBelow(pout: Pattern, s: Build, o: NodeId, c: NodeId, depth: nat)
    decreases depth, 1
  {
    && c in s.origin && s.origin[c] == o
    && forall child | child in Successors(pout, o) :: depth > 0 && TreeUnder(pout, s, c, child, depth - 1)
  }

  /** Some copy of output node `o` hangs under `parent` with its subtree copied. */
  ghost predicate TreeUnder(pout: Pattern, s: Build, parent: NodeId, o: NodeId, depth: nat)
    decreases depth, 2
  {
    exists c | c in s.origin && (parent, c) in s.graph.order :: CopiedBelow(pout, s, o, c, depth)
  }

  /** Every output node of `succs` has a copied subtree hung under `parent`. */
  ghost predicate TreesUnder(pout: Pattern, s: Build, parent: NodeId, succs: seq<NodeId>, depth: nat) {
    forall o | o in succs :: TreeUnder(pout, s, parent, o, depth)
  }

  /** A copied subtree stays copied as the build state grows. */
  lemma {:induction false} CopiedBelowKept(pout: Pattern, s: Build, s': Build, o: NodeId, c: NodeId, depth: nat)
    requires CopiedBelow(pout, s, o, c, depth) && Extends(s, s')
    ensures CopiedBelow(pout, s', o, c, depth)
    decreases depth
  {
    forall child | child in Successors(pout, o)
      ensures depth > 0 && TreeUnder(pout, s', c, child, depth - 1)
    {
      assert depth > 0 && TreeUnder(pout, s, c, child, depth - 1);
      var cc :| cc in s.origin && (c, cc) in s.graph.order && CopiedBelow(pout, s, child, cc, depth - 1);
      CopiedBelowKept(pout, s, s', child, cc, depth - 1);
      assert cc in s'.origin && (c, cc) in s'.graph.order;
    }
  }

  lemma TreeUnderKept(pout: Pattern, s: Build, s': Build, parent: NodeId, o: NodeId, depth: nat)
    requires TreeUnder(pout, s, parent, o, depth) && Extends(s, s')
    ensures TreeUnder(pout, s', parent, o, depth)
  {
    var c :| c in s.origin && (parent, c) in s.graph.order && CopiedBelow(pout, s, o, c, depth);
    CopiedBelowKept(pout, s, s', o, c, depth);
    assert c in s'.origin && (parent, c) in s'.graph.order;
  }

  /** A copy of top-level output node `t` with its subtree copied, hung under the
      root when `t` has no correspondent. */
  ghost predicate TopTree(pout: Pattern, backward: map<NodeId, NodeId>, s: Build, t: NodeId, depth: nat) {
    exists c | c in s.origin :: CopiedBelow(pout, s, t, c, depth) && (t !in backward ==> (Root, c) in s.graph.order)
  }

  lemma TopTreeKept(pout: Pattern, backward: map<NodeId, NodeId>, s: Build, s': Build, t: NodeId, depth: nat)
    requires TopTree(pout, backward, s, t, depth) && Extends(s, s')
    ensures TopTree(pout, backward, s', t, depth)
  {
    var c :| c in s.origin && CopiedBelow(pout, s, t, c, depth) && (t !in backward ==> (Root, c) in s.graph.order);
    CopiedBelowKept(pout, s, s', t, c, depth);
    assert c in s'.origin;
  }

  /** What `_add_output_graph` leaves for top-level output node `t`: a copy with
      its whole subtree copied, recorded in `_cur_node_dict` under `t`'s
      correspondent when it has one, and hung under the root with order -1
      otherwise. */
  ghost predicate TopCopied(pout: Pattern, backward: map<NodeId, NodeId>, s: Build, t: NodeId, depth: nat) {
    exists c | c in s.origin ::
      && CopiedBelow(pout, s, t, c, depth)
      && if t in backward then backward[t] in s.copies && c in s.copies[backward[t]]
         else (Root, c) in s.graph.order && s.graph.order[(Root, c)] == -1
  }

  /** Under the phase-two invariant a top-level copy is recorded or hung as
      `_add_output_graph` prescribes. */
  lemma TopCopiedFrom(pout: Pattern, backward: map<NodeId, NodeId>, m: map<NodeId, NodeId>,
                      g0: Graph, s: Build, t: NodeId, depth: nat)
    requires Instantiates(pout, backward, m, g0, s) && TopTree(pout, backward, s, t, depth)
    ensures TopCopied(pout, backward, s, t, depth)
  {
    var c :| c in s.origin && CopiedBelow(pout, s, t, c, depth) && (t !in backward ==> (Root, c) in s.graph.order);
    assert c in s.graph.value;
    assert CopyPayloadOk(pout, backward, m, g0, s, c);
    if t !in backward {
      assert c !in g0.value;
      assert (Root, c) !in g0.order;
      assert NewEdgeOk(pout, backward, s, (Root, c));
    }
  }

  /** Output node `o2` lies within `depth` levels below `o` in the output pattern. */
  ghost predicate Reaches(pout: Pattern, o: NodeId, o2: NodeId, depth: nat)
    decreases depth
  {
    o == o2 || (depth > 0 && exists child | child in Successors(pout, o) :: Reaches(pout, child, o2, depth - 1))
  }

  /** Every output node of a copied subtree that has a correspondent got a copy
      recorded under that correspondent. */
  lemma {:induction false} CopiedBelowRecords(pout: Pattern, backward: map<NodeId, NodeId>, m: map<NodeId, NodeId>,
                                              g0: Graph, s: Build, o: NodeId, c: NodeId, o2: NodeId, depth: nat)
    requires Instantiates(pout, backward, m, g0, s)
    requires CopiedBelow(pout, s, o, c, depth) && Reaches(pout, o, o2, depth) && o2 in backward
    ensures backward[o2] in s.copies && |s.copies[backward[o2]]| > 0
    decreases depth
  {
    if o == o2 {
      assert c in s.graph.value;
      assert CopyPayloadOk(pout, backward, m, g0, s, c);
    } else {
      var child :| child in Successors(pout, o) && Reaches(pout, child, o2, depth - 1);
      assert TreeUnder(pout, s, c, child, depth - 1);
      var cc :| cc in s.origin && (c, cc) in s.graph.order && CopiedBelow(pout, s, child, cc, depth - 1);
      CopiedBelowRecords(pout, backward, m, g0, s, child, cc, o2, depth - 1);
    }
  }

  lemma NewCopyPayloads(pout: Pattern, backward: map<NodeId, NodeId>, m: map<NodeId, NodeId>,
                        g0: Graph, s: Build, node: NodeId, v: Payload, s': Build)
    requires Valid(s.graph) && OriginsFresh(g0, s) && PayloadsOk(pout, backward, m, g0, s)
    requires Extends(Build(g0, map[], map[]), s)
    requires s'.graph == NewNode(s.graph, v).0 && s'.origin == s.origin[s.graph.next := node]
    requires if node in backward then
               && backward[node] in m && m[backward[node]] in g0.value && v == g0.value[m[backward[node]]]
               && s'.copies == s.copies[backward[node] := Lookup(s.copies, backward[node]) + [s.graph.next]]
             else
               node in pout.value && v == pout.value[node] && s'.copies == s.copies
    ensures PayloadsOk(pout, backward, m, g0, s')
  {
    var c := s.graph.next;
    forall d | d in s'.origin && d in s'.graph.value
      ensures CopyPayloadOk(pout, backward, m, g0, s', d)
    {
      if d != c {
        assert CopyPayloadOk(pout, backward, m, g0, s, d);
      }
    }
  }

  lemma NewCopyEdges(pout: Pattern, backward: map<NodeId, NodeId>, g0: Graph, s: Build, s': Build)
    requires EdgesOk(pout, backward, g0, s)
    requires s'.graph.order == s.graph.order
    requires forall c | c in s.origin :: c in s'.origin && s'.origin[c] == s.origin[c]
    ensures EdgesOk(pout, backward, g0, s')
  {
    forall e | e in s'.graph.order && e !in g0.order
      ensures NewEdgeOk(pout, backward, s', e)
    {
      assert NewEdgeOk(pout, backward, s, e);
    }
  }

  /** Allocating a copy of output node `node` with the prescribed payload and
      bookkeeping keeps the phase-two invariant. */
  lemma NewCopyKeepsInstantiates(pout: Pattern, backward: map<NodeId, NodeId>, m: map<NodeId, NodeId>,
                                 g0: Graph, s: Build, node: NodeId, v: Payload, s': Build)
    requires Instantiates(pout, backward, m, g0, s)
    requires s'.graph == NewNode(s.graph, v).0 && s'.origin == s.origin[s.graph.next := node]
    requires if node in backward then
               && backward[node] in m && m[backward[node]] in g0.value && v == g0.value[m[backward[node]]]
               && s'.copies == s.copies[backward[node] := Lookup(s.copies, backward[node]) + [s.graph.next]]
             else
               node in pout.value && v == pout.value[node] && s'.copies == s.copies
    ensures Instantiates(pout, backward, m, g0, s') && Extends(s, s')
  {
    var c := s.graph.next;
    assert c !in s.graph.value;
    assert c !in s.origin;
    assert Extends(s, s');
    assert OriginsFresh(g0, s');
    NewCopyPayloads(pout, backward, m, g0, s, node, v, s');
    assert CopiesOk(backward, s');
    NewCopyEdges(pout, backward, g0, s, s');
  }

  /** `_copy_output_node`: allocate a copy of output node `node`. When `node` has
      a correspondent in the input pattern, the copy takes the payload of the
      target node matched to that correspondent and is appended to its list;
      otherwise it takes `node`'s own payload. */
  function CopyOutputNode(pout: Pattern, backward: map<NodeId, NodeId>, m: map<NodeId, NodeId>,
                          ghost g0: Graph, s: Build, node: NodeId): (r: Result<(Build, NodeId)>)
    requires Instantiates(pout, backward, m, g0, s)
    ensures r.Ok? <==> Copyable(pout, backward, m, g0, node)
    ensures r.Ok? ==> Instantiates(pout, backward, m, g0, r.value.0) && Extends(s, r.value.0)
    ensures r.Ok? ==> r.value.1 == s.graph.next && r.value.0.graph.next == s.graph.next + 1
    ensures r.Ok? ==> r.value.1 !in s.graph.value && r.value.1 in r.value.0.origin
                      && r.value.0.origin[r.value.1] == node
    ensures r.Ok? ==> r.value.0.graph.nodes == s.graph.nodes && r.value.0.graph.order == s.graph.order
    ensures r.Ok? && node in backward ==>
              && r.value.0.graph.value[r.value.1] == g0.value[m[backward[node]]]
              && r.value.0.copies == s.copies[backward[node] := Lookup(s.copies, backward[node]) + [r.value.1]]
    ensures r.Ok? && node !in backward ==>
              r.value.0.graph.value[r.value.1] == pout.value[node] && r.value.0.copies == s.copies
  {
    if node in backward then
      var src := backward[node];
      if src !in m then Err(MissingKey)
      else if m[src] !in s.graph.value then Err(NoPayload)
      else
        var (g', c) := NewNode(s.graph, s.graph.value[m[src]]);
        var s' := Build(g', s.copies[src := Lookup(s.copies, src) + [c]], s.origin[c := node]);
        NewCopyKeepsInstantiates(pout, backward, m, g0, s, node, s.graph.value[m[src]], s');
        Ok((s', c))
    else if node !in pout.value then Err(NoPayload)
    else
      var (g', c) := NewNode(s.graph, pout.value[node]);
      var s' := Build(g', s.copies, s.origin[c := node]);
      NewCopyKeepsInstantiates(pout, backward, m, g0, s, node, pout.value[node], s');
      Ok((s', c))
  }

  /** `_copy_output_node` can copy output node `o`: the target node matched to
      `o`'s correspondent has a payload, or `o` without correspondent has one
      of its own. */
  ghost predicate Copyable(pout: Pattern, backward: map<NodeId, NodeId>, m: map<NodeId, NodeId>, g0: Graph, o: NodeId) {
    if o in backward then backward[o] in m && m[backward[o]] in g0.value else o in pout.value
  }

  /** The output nodes phase two copies below `node`, in the order it copies
      them: for each successor, the successor and then its own unfolding. The
      pattern is unfolded as a tree, so a node reached along two paths occurs
      twice. `None` when the unfolding is deeper than `fuel`. */
  ghost function UnfoldBelow(pout: Pattern, node: NodeId, fuel: nat): Option<seq<NodeId>>
    decreases fuel, 0
  {
    var succs := Successors(pout, node);
    if succs == [] then Some([])
    else if fuel == 0 then None
    else UnfoldEach(pout, succs, fuel - 1)
  }

  ghost function UnfoldEach(pout: Pattern, succs: seq<NodeId>, fuel: nat): Option<seq<NodeId>>
    decreases fuel, 1, |succs|
  {
    if succs == [] then Some([])
    else
      var below := UnfoldBelow(pout, succs[0], fuel);
      var rest := UnfoldEach(pout, succs[1..], fuel);
      if below.None? || rest.None? then None
      else Some([succs[0]] + below.value + rest.value)
  }

  /** The output nodes the whole of phase two copies, in order. */
  ghost function BuildPlan(pout: Pattern): Option<seq<NodeId>> {
    UnfoldEach(pout, Successors(pout, Root), |pout.nodes|)
  }

  /** The unfolding exists and every node in it can be copied. */
  ghost predicate Buildable(pout: Pattern, backward: map<NodeId, NodeId>, m: map<NodeId, NodeId>, g0: Graph,
                            u: Option<seq<NodeId>>) {
    u.Some? && forall o | o in u.value :: Copyable(pout, backward, m, g0, o)
  }

  /** How many nodes of `l` have `src` as correspondent. */
  function Occurrences(backward: map<NodeId, NodeId>, l: seq<NodeId>, src: NodeId): nat {
    if l == [] then 0
    else (if l[0] in backward && backward[l[0]] == src then 1 else 0) + Occurrences(backward, l[1..], src)
  }

  lemma {:induction false} OccurrencesConcat(backward: map<NodeId, NodeId>, a: seq<NodeId>, b: seq<NodeId>, src: NodeId)
    ensures Occurrences(backward, a + b, src) == Occurrences(backward, a, src) + Occurrences(backward, b, src)
  {
    if a == [] {
      assert a + b == b;
    } else {
      assert (a + b)[0] == a[0];
      assert (a + b)[1..] == a[1..] + b;
      OccurrencesConcat(backward, a[1..], b, src);
    }
  }

  /** The identifiers `base + i`, in increasing order, of the entries `l[i]`
      that have `src` as correspondent: the copies `_cur_node_dict[src]` gains
      when the nodes of `l` are copied one after the other from `base` on. */
  function FreshCopiesOf(backward: map<NodeId, NodeId>, base: NodeId, l: seq<NodeId>, src: NodeId): (r: seq<NodeId>)
    ensures |r| == Occurrences(backward, l, src)
    ensures forall i | 0 <= i < |r| :: base <= r[i] < base + |l|
    ensures forall i, j | 0 <= i < j < |r| :: r[i] < r[j]
    decreases |l|
  {
    if l == [] then []
    else
      var rest := FreshCopiesOf(backward, base + 1, l[1..], src);
      if l[0] in backward && backward[l[0]] == src then
        assert forall i | 0 <= i < |rest| :: ([base] + rest)[i + 1] == rest[i];
        [base] + rest
      else rest
  }

  lemma {:induction false} FreshCopiesOfConcat(backward: map<NodeId, NodeId>, base: NodeId,
                                               a: seq<NodeId>, b: seq<NodeId>, src: NodeId)
    ensures FreshCopiesOf(backward, base, a + b, src)
            == FreshCopiesOf(backward, base, a, src) + FreshCopiesOf(backward, base + |a|, b, src)
    decreases |a|
  {
    if a == [] {
      assert a + b == b;
    } else {
      assert (a + b)[0] == a[0];
      assert (a + b)[1..] == a[1..] + b;
      FreshCopiesOfConcat(backward, base + 1, a[1..], b, src);
    }
  }

  /** Going from `s` to `s'` allocated one copy of each node of `l`, in order:
      the counter advanced by `|l|`, the fresh identifier `s.graph.next + i` is a
      copy of `l[i]`, and each list of `_cur_node_dict` was extended, at its end,
      by the copies of the nodes of `l` that have its key as correspondent, in
      creation order. */
  ghost predicate Allocates(backward: map<NodeId, NodeId>, s: Build, s': Build, l: seq<NodeId>) {
    && s'.graph.next == s.graph.next + |l|
    && (forall c | s.graph.next <= c < s'.graph.next :: c in s'.origin && s'.origin[c] == l[c - s.graph.next])
    && CopiesGrow(backward, s.graph.next, s.copies, s'.copies, l)
  }

  /** Starting from an empty `_cur_node_dict`, each list ends up holding exactly
      the copies of the nodes of `l` with its key as correspondent, in creation
      order, so it is as long as the number of such nodes. */
  lemma CopiesFromEmpty(backward: map<NodeId, NodeId>, base: NodeId, copies': map<NodeId, seq<NodeId>>, l: seq<NodeId>)
    requires CopiesGrow(backward, base, map[], copies', l)
    ensures forall src :: Lookup(copies', src) == FreshCopiesOf(backward, base, l, src)
    ensures forall src :: |Lookup(copies', src)| == Occurrences(backward, l, src)
  {
    forall src ensures Lookup(copies', src) == FreshCopiesOf(backward, base, l, src) {
      assert Lookup(copies', src) == Lookup(map[], src) + FreshCopiesOf(backward, base, l, src);
      assert Lookup(map[], src) == [];
    }
  }

  /** Each list of `copies'` is its list in `copies` followed by the copies,
      allocated from `base` on, of the nodes of `l` that have its key as
      correspondent. */
  ghost predicate CopiesGrow(backward: map<NodeId, NodeId>, base: NodeId, copies: map<NodeId, seq<NodeId>>,
                             copies': map<NodeId, seq<NodeId>>, l: seq<NodeId>) {
    forall src :: Lookup(copies', src) == Lookup(copies, src) + FreshCopiesOf(backward, base, l, src)
  }

  lemma AllocatesTrans(backward: map<NodeId, NodeId>, s1: Build, s2: Build, s3: Build, a: seq<NodeId>, b: seq<NodeId>)
    requires Allocates(backward, s1, s2, a) && Allocates(backward, s2, s3, b) && Extends(s2, s3)
    ensures Allocates(backward, s1, s3, a + b)
  {
    forall c | s1.graph.next <= c < s3.graph.next
      ensures c in s3.origin && s3.origin[c] == (a + b)[c - s1.graph.next]
    {
      if c < s2.graph.next {
        assert (a + b)[c - s1.graph.next] == a[c - s1.graph.next];
      } else {
        assert (a + b)[c - s1.graph.next] == b[c - s2.graph.next];
      }
    }
    CopiesGrowTrans(backward, s1.graph.next, s1.copies, s2.copies, s3.copies, a, b);
  }

  lemma CopiesGrowTrans(backward: map<NodeId, NodeId>, base: NodeId, copies1: map<NodeId, seq<NodeId>>,
                        copies2: map<NodeId, seq<NodeId>>, copies3: map<NodeId, seq<NodeId>>,
                        a: seq<NodeId>, b: seq<NodeId>)
    requires CopiesGrow(backward, base, copies1, copies2, a) && CopiesGrow(backward, base + |a|, copies2, copies3, b)
    ensures CopiesGrow(backward, base, copies1, copies3, a + b)
  {
    forall src
      ensures Lookup(copies3, src) == Lookup(copies1, src) + FreshCopiesOf(backward, base, a + b, src)
    {
      FreshCopiesOfConcat(backward, base, a, b, src);
      assert Lookup(copies3, src) == Lookup(copies2, src) + FreshCopiesOf(backward, base + |a|, b, src);
      assert Lookup(copies2, src) == Lookup(copies1, src) + FreshCopiesOf(backward, base, a, src);
    }
  }

  /** One step of `UnfoldEach`: the first node, its unfolding, then the rest. */
  lemma UnfoldEachStep(pout: Pattern, backward: map<NodeId, NodeId>, m: map<NodeId, NodeId>, g0: Graph,
                       succs: seq<NodeId>, fuel: nat)
    requires succs != []
    ensures Buildable(pout, backward, m, g0, UnfoldEach(pout, succs, fuel))
            <==> && Copyable(pout, backward, m, g0, succs[0])
                 && Buildable(pout, backward, m, g0, UnfoldBelow(pout, succs[0], fuel))
                 && Buildable(pout, backward, m, g0, UnfoldEach(pout, succs[1..], fuel))
    ensures UnfoldEach(pout, succs, fuel).Some? ==>
              UnfoldEach(pout, succs, fuel).value
              == [succs[0]] + UnfoldBelow(pout, succs[0], fuel).value + UnfoldEach(pout, succs[1..], fuel).value
  {
  }

  /** One fresh copy of `node` is an allocation of `[node]`. */
  lemma AllocatesOne(backward: map<NodeId, NodeId>, s: Build, s': Build, node: NodeId)
    requires s'.graph.next == s.graph.next + 1
    requires s.graph.next in s'.origin && s'.origin[s.graph.next] == node
    requires node in backward ==>
               s'.copies == s.copies[backward[node] := Lookup(s.copies, backward[node]) + [s.graph.next]]
    requires node !in backward ==> s'.copies == s.copies
    ensures Allocates(backward, s, s', [node])
  {
    assert [node][1..] == [];
  }

  /** `defaultdict(list)` lookup: the list under `k`, or the empty list. */
  function Lookup(copies: map<NodeId, seq<NodeId>>, k: NodeId): seq<NodeId> {
    if k in copies then copies[k] else []
  }

  /** Hanging copy `child` under `parent` with order `o`, as an edge phase two
      may add, keeps the invariant. */
  lemma AddCopyEdgeKeepsInstantiates(pout: Pattern, backward: map<NodeId, NodeId>, m: map<NodeId, NodeId>,
                                     g0: Graph, s: Build, parent: NodeId, child: NodeId, o: int)
    requires Instantiates(pout, backward, m, g0, s)
    requires child in s.origin && Allocated(s.graph, parent) && (parent, child) !in s.graph.order
    requires if parent == Root then
               s.origin[child] in Successors(pout, Root) && s.origin[child] !in backward && o == -1
             else
               && parent in s.origin && s.origin[child] in Successors(pout, s.origin[parent])
               && (s.origin[parent], s.origin[child]) in pout.order
               && o == pout.order[(s.origin[parent], s.origin[child])]
    ensures Instantiates(pout, backward, m, g0, Build(AddEdge(s.graph, parent, child, o), s.copies, s.origin))
    ensures Extends(s, Build(AddEdge(s.graph, parent, child, o), s.copies, s.origin))
  {
    var s' := Build(AddEdge(s.graph, parent, child, o), s.copies, s.origin);
    assert (parent, child) !in g0.order by {
      assert child !in g0.nodes;
    }
    assert Extends(Build(g0, map[], map[]), s');
    assert PayloadsOk(pout, backward, m, g0, s') by {
      forall c | c in s'.origin && c in s'.graph.value
        ensures CopyPayloadOk(pout, backward, m, g0, s', c)
      {
        assert CopyPayloadOk(pout, backward, m, g0, s, c);
      }
    }
    assert EdgesOk(pout, backward, g0, s') by {
      forall e | e in s'.graph.order && e !in g0.order
        ensures NewEdgeOk(pout, backward, s', e)
      {
        if e != (parent, child) {
          assert NewEdgeOk(pout, backward, s, e);
        }
      }
    }
  }

  /** `_add_output_graph_rec(node, nodeCopy)`: copy each successor of `node` in
      the output pattern, hang the copy under `nodeCopy` with the pattern edge's
      order, and descend. `fuel` bounds the depth of descent. */
  function AddBelow(pout: Pattern, backward: map<NodeId, NodeId>, m: map<NodeId, NodeId>,
                    ghost g0: Graph, s: Build, node: NodeId, nodeCopy: NodeId, fuel: nat): (r: Result<Build>)
    requires ValidPattern(pout) && Instantiates(pout, backward, m, g0, s)
    requires nodeCopy in s.origin && s.origin[nodeCopy] == node
    ensures r.Ok? ==> Instantiates(pout, backward, m, g0, r.value) && Extends(s, r.value)
    ensures r.Ok? ==> CopiedBelow(pout, r.value, node, nodeCopy, fuel)
    ensures r.Ok? <==> Buildable(pout, backward, m, g0, UnfoldBelow(pout, node, fuel))
    ensures r.Ok? ==> Allocates(backward, s, r.value, UnfoldBelow(pout, node, fuel).value)
    decreases fuel, 0, 0, 0
  {
    var succs := Successors(pout, node);
    if succs == [] then Ok(s)
    else if fuel == 0 then Err(RecursionLimit)
    else AddChildren(pout, backward, m, g0, s, node, nodeCopy, succs, fuel - 1)
  }

  /** The loop of `_add_output_graph_rec` over the successors `succs` of `node`. */
  function AddChildren(pout: Pattern, backward: map<NodeId, NodeId>, m: map<NodeId, NodeId>,
                       ghost g0: Graph, s: Build, node: NodeId, nodeCopy: NodeId, succs: seq<NodeId>, fuel: nat)
    : (r: Result<Build>)
    requires ValidPattern(pout) && Instantiates(pout, backward, m, g0, s)
    requires nodeCopy in s.origin && s.origin[nodeCopy] == node
    requires forall c | c in succs :: c in Successors(pout, node)
    ensures r.Ok? ==> Instantiates(pout, backward, m, g0, r.value) && Extends(s, r.value)
    ensures r.Ok? ==> TreesUnder(pout, r.value, nodeCopy, succs, fuel)
    ensures r.Ok? <==> Buildable(pout, backward, m, g0, UnfoldEach(pout, succs, fuel))
    ensures r.Ok? ==> Allocates(backward, s, r.value, UnfoldEach(pout, succs, fuel).value)
    decreases fuel, 1, |succs|, 1
  {
    if succs == [] then Ok(s)
    else AddFirstChild(pout, backward, m, g0, s, node, nodeCopy, succs, fuel)
  }

  /** A round of that loop on a non-empty `succs`: the first successor, then the rest. */
  function AddFirstChild(pout: Pattern, backward: map<NodeId, NodeId>, m: map<NodeId, NodeId>,
                         ghost g0: Graph, s: Build, node: NodeId, nodeCopy: NodeId, succs: seq<NodeId>, fuel: nat)
    : (r: Result<Build>)
    requires ValidPattern(pout) && Instantiates(pout, backward, m, g0, s)
    requires nodeCopy in s.origin && s.origin[nodeCopy] == node
    requires succs != [] && forall c | c in succs :: c in Successors(pout, node)
    ensures r.Ok? ==> Instantiates(pout, backward, m, g0, r.value) && Extends(s, r.value)
    ensures r.Ok? ==> TreesUnder(pout, r.value, nodeCopy, succs, fuel)
    ensures r.Ok? <==> Buildable(pout, backward, m, g0, UnfoldEach(pout, succs, fuel))
    ensures r.Ok? ==> Allocates(backward, s, r.value, UnfoldEach(pout, succs, fuel).value)
    decreases fuel, 1, |succs|, 0
  {
    UnfoldEachStep(pout, backward, m, g0, succs, fuel);
    var s1 :- AddChild(pout, backward, m, g0, s, node, nodeCopy, succs[0], fuel);
    var rest :- AddChildren(pout, backward, m, g0, s1, node, nodeCopy, succs[1..], fuel);
    ChildrenStep(pout, backward, s, s1, rest, nodeCopy, succs, fuel);
    Ok(rest)
  }

  lemma ChildrenStep(pout: Pattern, backward: map<NodeId, NodeId>, s: Build, s1: Build, rest: Build,
                     nodeCopy: NodeId, succs: seq<NodeId>, fuel: nat)
    requires succs != [] && UnfoldEach(pout, succs, fuel).Some?
    requires UnfoldEach(pout, succs, fuel).value
             == [succs[0]] + UnfoldBelow(pout, succs[0], fuel).value + UnfoldEach(pout, succs[1..], fuel).value
    requires Extends(s, s1) && Extends(s1, rest)
    requires Allocates(backward, s, s1, [succs[0]] + UnfoldBelow(pout, succs[0], fuel).value)
    requires Allocates(backward, s1, rest, UnfoldEach(pout, succs[1..], fuel).value)
    requires TreeUnder(pout, s1, nodeCopy, succs[0], fuel)
    requires TreesUnder(pout, rest, nodeCopy, succs[1..], fuel)
    ensures Extends(s, rest)
    ensures Allocates(backward, s, rest, UnfoldEach(pout, succs, fuel).value)
    ensures TreesUnder(pout, rest, nodeCopy, succs, fuel)
  {
    ExtendsTrans(s, s1, rest);
    AllocatesTrans(backward, s, s1, rest, [succs[0]] + UnfoldBelow(pout, succs[0], fuel).value,
                   UnfoldEach(pout, succs[1..], fuel).value);
    TreeUnderKept(pout, s1, rest, nodeCopy, succs[0], fuel);
    assert forall c | c in succs :: c == succs[0] || c in succs[1..];
  }

  /** One round of that loop: copy `child`, hang the copy under `nodeCopy` with
      the pattern edge's order, and descend below it. */
  function AddChild(pout: Pattern, backward: map<NodeId, NodeId>, m: map<NodeId, NodeId>,
                    ghost g0: Graph, s: Build, node: NodeId, nodeCopy: NodeId, child: NodeId, fuel: nat)
    : (r: Result<Build>)
    requires ValidPattern(pout) && Instantiates(pout, backward, m, g0, s)
    requires nodeCopy in s.origin && s.origin[nodeCopy] == node
    requires child in Successors(pout, node)
    ensures r.Ok? ==> Instantiates(pout, backward, m, g0, r.value) && Extends(s, r.value)
    ensures r.Ok? ==> TreeUnder(pout, r.value, nodeCopy, child, fuel)
    ensures r.Ok? <==> Copyable(pout, backward, m, g0, child) && Buildable(pout, backward, m, g0, UnfoldBelow(pout, child, fuel))
    ensures r.Ok? ==> Allocates(backward, s, r.value, [child] + UnfoldBelow(pout, child, fuel).value)
    decreases fuel, 0, 1, 0
  {
    var (s1, childCopy) :- CopyOutputNode(pout, backward, m, g0, s, child);
    assert node in pout.succ && child in pout.succ[node];
    var s2 := Build(AddEdge(s1.graph, nodeCopy, childCopy, pout.order[(node, child)]), s1.copies, s1.origin);
    ChildCopyStep(pout, backward, m, g0, s, s1, node, nodeCopy, child, childCopy, s2);
    AllocatesOne(backward, s, s2, child);
    var below :- AddBelow(pout, backward, m, g0, s2, child, childCopy, fuel);
    ExtendsTrans(s, s2, below);
    AllocatesTrans(backward, s, s2, below, [child], UnfoldBelow(pout, child, fuel).value);
    assert childCopy in below.origin && (nodeCopy, childCopy) in below.graph.order;
    Ok(below)
  }

  lemma ExtendsTrans(s1: Build, s2: Build, s3: Build)
    requires Extends(s1, s2) && Extends(s2, s3)
    ensures Extends(s1, s3)
  {
  }

  lemma ChildCopyStep(pout: Pattern, backward: map<NodeId, NodeId>, m: map<NodeId, NodeId>, g0: Graph,
                      s: Build, s1: Build, node: NodeId, nodeCopy: NodeId, child: NodeId, childCopy: NodeId, s2: Build)
    requires ValidPattern(pout) && Instantiates(pout, backward, m, g0, s1) && Extends(s, s1)
    requires nodeCopy in s.origin && s.origin[nodeCopy] == node
    requires child in Successors(pout, node)
    requires childCopy in s1.origin && s1.origin[childCopy] == child && childCopy !in s1.graph.nodes
    requires (node, child) in pout.order
    requires s2 == Build(AddEdge(s1.graph, nodeCopy, childCopy, pout.order[(node, child)]), s1.copies, s1.origin)
    ensures Instantiates(pout, backward, m, g0, s2) && Extends(s, s2)
    ensures childCopy in s2.origin && s2.origin[childCopy] == child
    ensures nodeCopy in s2.origin && s2.origin[nodeCopy] == node
    ensures (nodeCopy, childCopy) in s2.graph.order
  {
    assert nodeCopy in s1.origin && nodeCopy in s1.graph.value;
    assert nodeCopy != Root by {
      assert Root !in s1.graph.value;
    }
    AddCopyEdgeKeepsInstantiates(pout, backward, m, g0, s1, nodeCopy, childCopy, pout.order[(node, child)]);
    ExtendsTrans(s, s1, s2);
    assert (nodeCopy, childCopy) in s2.graph.order;
  }

  lemma TopCopyStep(pout: Pattern, backward: map<NodeId, NodeId>, m: map<NodeId, NodeId>,
                    g0: Graph, s1: Build, node: NodeId, copy: NodeId, s2: Build)
    requires Instantiates(pout, backward, m, g0, s1)
    requires node in Successors(pout, Root) && copy in s1.origin && s1.origin[copy] == node
    requires copy !in s1.graph.nodes
    requires s2 == if node !in backward then Build(AddEdge(s1.graph, Root, copy, -1), s1.copies, s1.origin) else s1
    ensures Instantiates(pout, backward, m, g0, s2) && Extends(s1, s2)
    ensures copy in s2.origin && s2.origin[copy] == node
    ensures node !in backward ==> (Root, copy) in s2.graph.order
  {
    if node !in backward {
      AddCopyEdgeKeepsInstantiates(pout, backward, m, g0, s1, Root, copy, -1);
    }
  }

  /** The loop of `_add_output_graph` over the top-level output nodes `tops`. */
  function AddTops(pout: Pattern, backward: map<NodeId, NodeId>, m: map<NodeId, NodeId>,
                   ghost g0: Graph, s: Build, tops: seq<NodeId>, fuel: nat): (r: Result<Build>)
    requires ValidPattern(pout) && Instantiates(pout, backward, m, g0, s)
    requires forall t | t in tops :: t in Successors(pout, Root)
    ensures r.Ok? ==> Instantiates(pout, backward, m, g0, r.value) && Extends(s, r.value)
    ensures r.Ok? ==> forall t | t in tops :: TopTree(pout, backward, r.value, t, fuel)
    ensures r.Ok? <==> Buildable(pout, backward, m, g0, UnfoldEach(pout, tops, fuel))
    ensures r.Ok? ==> Allocates(backward, s, r.value, UnfoldEach(pout, tops, fuel).value)
    decreases |tops|, 1
  {
    if tops == [] then Ok(s)
    else AddFirstTop(pout, backward, m, g0, s, tops, fuel)
  }

  /** A round of that loop on a non-empty `tops`: the first one, then the rest. */
  function AddFirstTop(pout: Pattern, backward: map<NodeId, NodeId>, m: map<NodeId, NodeId>,
                       ghost g0: Graph, s: Build, tops: seq<NodeId>, fuel: nat): (r: Result<Build>)
    requires ValidPattern(pout) && Instantiates(pout, backward, m, g0, s)
    requires tops != [] && forall t | t in tops :: t in Successors(pout, Root)
    ensures r.Ok? ==> Instantiates(pout, backward, m, g0, r.value) && Extends(s, r.value)
    ensures r.Ok? ==> forall t | t in tops :: TopTree(pout, backward, r.value, t, fuel)
    ensures r.Ok? <==> Buildable(pout, backward, m, g0, UnfoldEach(pout, tops, fuel))
    ensures r.Ok? ==> Allocates(backward, s, r.value, UnfoldEach(pout, tops, fuel).value)
    decreases |tops|, 0
  {
    UnfoldEachStep(pout, backward, m, g0, tops, fuel);
    var s1 :- AddTop(pout, backward, m, g0, s, tops[0], fuel);
    var rest :- AddTops(pout, backward, m, g0, s1, tops[1..], fuel);
    TopsStep(pout, backward, s, s1, rest, tops, fuel);
    Ok(rest)
  }

  lemma TopsStep(pout: Pattern, backward: map<NodeId, NodeId>, s: Build, s1: Build, rest: Build,
                 tops: seq<NodeId>, fuel: nat)
    requires tops != [] && UnfoldEach(pout, tops, fuel).Some?
    requires UnfoldEach(pout, tops, fuel).value
             == [tops[0]] + UnfoldBelow(pout, tops[0], fuel).value + UnfoldEach(pout, tops[1..], fuel).value
    requires Extends(s, s1) && Extends(s1, rest)
    requires Allocates(backward, s, s1, [tops[0]] + UnfoldBelow(pout, tops[0], fuel).value)
    requires Allocates(backward, s1, rest, UnfoldEach(pout, tops[1..], fuel).value)
    requires TopTree(pout, backward, s1, tops[0], fuel)
    requires forall t | t in tops[1..] :: TopTree(pout, backward, rest, t, fuel)
    ensures Extends(s, rest)
    ensures Allocates(backward, s, rest, UnfoldEach(pout, tops, fuel).value)
    ensures forall t | t in tops :: TopTree(pout, backward, rest, t, fuel)
  {
    ExtendsTrans(s, s1, rest);
    AllocatesTrans(backward, s, s1, rest, [tops[0]] + UnfoldBelow(pout, tops[0], fuel).value,
                   UnfoldEach(pout, tops[1..], fuel).value);
    TopTreeKept(pout, backward, s1, rest, tops[0], fuel);
    assert forall t | t in tops :: t == tops[0] || t in tops[1..];
  }

  /** One round of that loop: a copy without correspondent hangs under the root
      with order -1, a copy with one waits for phase three to rewire it, and the
      output pattern below the node is copied beneath it. */
  function AddTop(pout: Pattern, backward: map<NodeId, NodeId>, m: map<NodeId, NodeId>,
                  ghost g0: Graph, s: Build, node: NodeId, fuel: nat): (r: Result<Build>)
    requires ValidPattern(pout) && Instantiates(pout, backward, m, g0, s)
    requires node in Successors(pout, Root)
    ensures r.Ok? ==> Instantiates(pout, backward, m, g0, r.value) && Extends(s, r.value)
    ensures r.Ok? ==> TopTree(pout, backward, r.value, node, fuel)
    ensures r.Ok? <==> Copyable(pout, backward, m, g0, node) && Buildable(pout, backward, m, g0, UnfoldBelow(pout, node, fuel))
    ensures r.Ok? ==> Allocates(backward, s, r.value, [node] + UnfoldBelow(pout, node, fuel).value)
  {
    var (s1, copy) :- CopyOutputNode(pout, backward, m, g0, s, node);
    var s2 := if node !in backward then Build(AddEdge(s1.graph, Root, copy, -1), s1.copies, s1.origin) else s1;
    TopCopyStep(pout, backward, m, g0, s1, node, copy, s2);
    ExtendsTrans(s, s1, s2);
    AllocatesOne(backward, s, s2, node);
    var below :- AddBelow(pout, backward, m, g0, s2, node, copy, fuel);
    ExtendsTrans(s, s2, below);
    AllocatesTrans(backward, s, s2, below, [node], UnfoldBelow(pout, node, fuel).value);
    assert copy in below.origin && (node !in backward ==> (Root, copy) in below.graph.order);
    Ok(below)
  }

  /** `_add_output_graph`: phase two on the whole output pattern, starting from an
      empty `_cur_node_dict`; the depth bound is the pattern's size. */
  function AddOutputGraph(pout: Pattern, backward: map<NodeId, NodeId>, m: map<NodeId, NodeId>, g: Graph)
    : (r: Result<Build>)
    requires ValidPattern(pout) && Valid(g)
    requires forall k | k in m :: Allocated(g, m[k])
    ensures r.Ok? ==> Instantiates(pout, backward, m, g, r.value)
    ensures r.Ok? ==> forall t | t in Successors(pout, Root) :: TopCopied(pout, backward, r.value, t, |pout.nodes|)
    ensures r.Ok? <==> Buildable(pout, backward, m, g, BuildPlan(pout))
    ensures r.Ok? ==> Allocates(backward, Build(g, map[], map[]), r.value, BuildPlan(pout).value)
    ensures r.Ok? ==> forall src :: Lookup(r.value.copies, src) == FreshCopiesOf(backward, g.next, BuildPlan(pout).value, src)
    ensures r.Ok? ==> forall src :: |Lookup(r.value.copies, src)| == Occurrences(backward, BuildPlan(pout).value, src)
    ensures r.Ok? ==> forall src, i, j | 0 <= i < j < |Lookup(r.value.copies, src)| ::
                        Lookup(r.value.copies, src)[i] < Lookup(r.value.copies, src)[j]
  {
    var s := Build(g, map[], map[]);
    assert Instantiates(pout, backward, m, g, s);
    var r :- AddTops(pout, backward, m, g, s, Successors(pout, Root), |pout.nodes|);
    forall t | t in Successors(pout, Root)
      ensures TopCopied(pout, backward, r, t, |pout.nodes|)
    {
      TopCopiedFrom(pout, backward, m, g, r, t, |pout.nodes|);
    }
    CopiesFromEmpty(backward, g.next, r.copies, BuildPlan(pout).value);
    Ok(r)
  }

  /** Phase two adds no edge into an old node and no edge out of an old node
      other than the root: every such edge of the result was already in `g0`,
      with its order. */
  lemma BuildKeepsOldEdges(pout: Pattern, backward: map<NodeId, NodeId>, m: map<NodeId, NodeId>, g0: Graph, s: Build)
    requires Instantiates(pout, backward, m, g0, s)
    ensures forall e | e in s.graph.order && (e.1 < g0.next || (e.0 != Root && e.0 < g0.next)) ::
      e in g0.order && s.graph.order[e] == g0.order[e]
  {
    assert EdgesOk(pout, backward, g0, s);
  }

  /** Phase two keeps every old node and brings in only the root and nodes
      numbered from `g0`'s allocation counter upwards. */
  lemma BuildNodes(pout: Pattern, backward: map<NodeId, NodeId>, m: map<NodeId, NodeId>, g0: Graph, s: Build)
    requires Instantiates(pout, backward, m, g0, s)
    ensures g0.nodes <= s.graph.nodes
    ensures forall n | n in s.graph.nodes :: n in g0.nodes || n == Root || n >= g0.next
  {
    assert NodesOk(g0, s);
  }

  /** Every node phase two allocates carries a payload of the output pattern or
      the payload of a matched target node. */
  lemma BuildPayloads(pout: Pattern, backward: map<NodeId, NodeId>, m: map<NodeId, NodeId>, g0: Graph, s: Build)
    requires Instantiates(pout, backward, m, g0, s)
    ensures forall n | n in s.graph.value && n !in g0.value ::
      || s.graph.value[n] in pout.value.Values
      || exists k | k in m :: m[k] in g0.value && s.graph.value[n] == g0.value[m[k]]
  {
    forall n | n in s.graph.value && n !in g0.value
      ensures || s.graph.value[n] in pout.value.Values
              || exists k | k in m :: m[k] in g0.value && s.graph.value[n] == g0.value[m[k]]
    {
      assert n in s.origin;
      assert CopyPayloadOk(pout, backward, m, g0, s, n);
      var o := s.origin[n];
      if o in backward {
        assert m[backward[o]] in g0.value && s.graph.value[n] == g0.value[m[backward[o]]];
      }
    }
  }
}

=== FILE: match.dfy ===
/** The caller's match (`transform_node_dict`): input-pattern nodes paired with
    target nodes, in dictionary insertion order, and the reversed dictionary the
    rewrite iterates over. */
module Matches {
  import opened OrderedGraph

  /** The (input-pattern node, target node) items of the match, in insertion order. */
  type Match = seq<(NodeId, NodeId)>

  /** A dictionary never holds a key twice. */
  predicate DistinctKeys(items: Match) {
    forall i, j | 0 <= i < j < |items| :: items[i].0 != items[j].0
  }

  /** The match as a lookup table. */
  function Image(items: Match): (m: map<NodeId, NodeId>)
    ensures forall k :: k in m <==> exists i | 0 <= i < |items| :: items[i].0 == k
  {
    if |items| == 0 then map[]
    else Image(items[..|items| - 1])[items[|items| - 1].0 := items[|items| - 1].1]
  }

  /** Every entry of the lookup table is an item of the match: the last one
      with that key. */
  lemma {:induction false} ImageFromItems(items: Match)
    ensures forall k | k in Image(items) :: exists i | 0 <= i < |items| :: items[i] == (k, Image(items)[k])
  {
    if |items| > 0 {
      var init := items[..|items| - 1];
      ImageFromItems(init);
      forall k | k in Image(items)
        ensures exists i | 0 <= i < |items| :: items[i] == (k, Image(items)[k])
      {
        if k == items[|items| - 1].0 {
          assert items[|items| - 1] == (k, Image(items)[k]);
        } else {
          var i :| 0 <= i < |init| && init[i] == (k, Image(init)[k]);
          assert items[i] == (k, Image(items)[k]);
        }
      }
    }
  }

  /** `reverse_transform_dict`: target node -> input node, a later item
      overwriting an earlier one with the same target node. */
  function Reverse(items: Match): (rev: map<NodeId, NodeId>)
    ensures forall x :: x in rev <==> exists i | 0 <= i < |items| :: items[i].1 == x
  {
    if |items| == 0 then map[]
    else Reverse(items[..|items| - 1])[items[|items| - 1].1 := items[|items| - 1].0]
  }

  /** The keys of `reverse_transform_dict` in iteration order: each target node at
      its first occurrence. */
  function TargetOrder(items: Match): (xs: seq<NodeId>)
    ensures forall x :: x in xs <==> exists i | 0 <= i < |items| :: items[i].1 == x
    ensures forall i, j | 0 <= i < j < |xs| :: xs[i] != xs[j]
  {
    if |items| == 0 then []
    else
      var xs := TargetOrder(items[..|items| - 1]);
      if items[|items| - 1].1 in xs then xs else xs + [items[|items| - 1].1]
  }

  /** `TargetOrder` lists the target nodes by first occurrence: every occurrence
      of a later-listed node comes after some occurrence of an earlier one. */
  lemma TargetOrderByFirstOccurrence(items: Match)
    ensures var xs := TargetOrder(items);
      forall i, j, b | 0 <= i < j < |xs| && 0 <= b < |items| && items[b].1 == xs[j] ::
        exists a | 0 <= a < b :: items[a].1 == xs[i]
  {
    var xs := TargetOrder(items);
    forall i, j, b | 0 <= i < j < |xs| && 0 <= b < |items| && items[b].1 == xs[j]
      ensures exists a | 0 <= a < b :: items[a].1 == xs[i]
    {
      FirstOccurrenceBefore(items, i, j, b);
    }
  }

  /** One instance of `TargetOrderByFirstOccurrence`, by induction on the match. */
  lemma {:induction false} FirstOccurrenceBefore(items: Match, i: nat, j: nat, b: nat)
    requires i < j < |TargetOrder(items)| && b < |items| && items[b].1 == TargetOrder(items)[j]
    ensures exists a | 0 <= a < b :: items[a].1 == TargetOrder(items)[i]
    decreases |items|
  {
    var init := items[..|items| - 1];
    var last := items[|items| - 1];
    var ys := TargetOrder(init);
    var xs := TargetOrder(items);
    if j < |ys| {
      assert xs[i] == ys[i] && xs[j] == ys[j];
      var b' := b;
      if b == |init| {
        b' :| 0 <= b' < |init| && init[b'].1 == ys[j];
      }
      assert init[b'].1 == ys[j];
      FirstOccurrenceBefore(init, i, j, b');
      var a :| 0 <= a < b' && init[a].1 == ys[i];
      assert items[a].1 == xs[i];
    } else {
      assert xs == ys + [last.1] && xs[j] == last.1 && last.1 !in ys;
      assert forall b' | 0 <= b' < |init| :: init[b'].1 != last.1;
      assert b >= |init|;
      assert xs[i] == ys[i] && ys[i] in ys;
      var a :| 0 <= a < |init| && init[a].1 == ys[i];
      assert items[a].1 == xs[i];
    }
  }

  /** With distinct keys, the reversed dictionary undoes the match: it sends each
      target node back to an input node the match sends to it, so distinct target
      nodes come from distinct input nodes. */
  lemma {:induction false} ReverseUndoesImage(items: Match)
    requires DistinctKeys(items)
    ensures forall x | x in Reverse(items) :: Reverse(items)[x] in Image(items) && Image(items)[Reverse(items)[x]] == x
    ensures forall x, y | x in Reverse(items) && y in Reverse(items) && x != y :: Reverse(items)[x] != Reverse(items)[y]
  {
    if |items| > 0 {
      var init := items[..|items| - 1];
      var last := items[|items| - 1];
      assert DistinctKeys(init);
      ReverseUndoesImage(init);
      assert last.0 !in Image(init);
      forall x | x in Reverse(items)
        ensures Reverse(items)[x] in Image(items) && Image(items)[Reverse(items)[x]] == x
      {
        if x != last.1 {
          assert Reverse(init)[x] != last.0;
        }
      }
    }
  }
}

=== FILE: reattach.dfy ===
/** Phase three of `Rule.apply` (lines 136-161): route the boundary edges of each
    matched target node to the copies made for it, renumbering siblings, and
    collect matched nodes left behind. */
module Reattach {
  import opened Results
  import opened OrderedGraph

  /** The predecessors of `x` outside the matched region. */
  function BoundaryPreds(g: Graph, x: NodeId, matched: set<NodeId>): set<NodeId> {
    set p | p in g.nodes && (p, x) in g.order && p !in matched
  }

  /** The successors of `x` outside the matched region. */
  function BoundarySuccs(g: Graph, x: NodeId, matched: set<NodeId>): set<NodeId> {
    set y | y in g.nodes && (x, y) in g.order && y !in matched
  }

  /** The position of the last occurrence of `c` in `cs`. */
  function LastIndex(cs: seq<NodeId>, c: NodeId): (i: nat)
    requires c in cs
    ensures i < |cs| && cs[i] == c
    ensures forall j | i < j < |cs| :: cs[j] != c
  {
    if cs[|cs| - 1] == c then |cs| - 1 else LastIndex(cs[..|cs| - 1], c)
  }

  /** `x`'s order at predecessor `p`, or 0 when there is no such edge. */
  function OrderAt(g: Graph, p: NodeId, x: NodeId): int {
    if (p, x) in g.order then g.order[(p, x)] else 0
  }

  /** The order an old out-edge of a boundary predecessor gets: unchanged up to
      `x`'s order, moved up by `n - 1` past it. */
  function ShiftedOrder(before: int, at: int, n: nat): int {
    if before > at then before + n - 1 else before
  }

  /** Line 147: out-edges of a boundary predecessor ordered after `x` move up by `n - 1`. */
  function Shifted(g: Graph, x: NodeId, n: nat, preds: set<NodeId>): (o: map<Edge, int>)
    ensures o.Keys == g.order.Keys
    ensures forall e | e in o ::
              o[e] == if e.0 in preds then ShiftedOrder(g.order[e], OrderAt(g, e.0, x), n) else g.order[e]
  {
    map e | e in g.order :: if e.0 in preds then ShiftedOrder(g.order[e], OrderAt(g, e.0, x), n) else g.order[e]
  }

  /** Line 149: each boundary predecessor points at the copies from `x`'s order onwards. */
  function InEdges(g: Graph, x: NodeId, cs: seq<NodeId>, preds: set<NodeId>): (o: map<Edge, int>)
    ensures forall p, c :: (p, c) in o <==> p in preds && c in cs
    ensures forall p, c | (p, c) in o :: o[(p, c)] == OrderAt(g, p, x) + LastIndex(cs, c)
  {
    var cset := set c | c in cs;
    map p, c | p in preds && c in cset :: (p, c) := OrderAt(g, p, x) + LastIndex(cs, c)
  }

  /** Line 153: each copy points at the boundary successors with their orders. */
  function OutEdges(g: Graph, x: NodeId, cs: seq<NodeId>, succs: set<NodeId>): (o: map<Edge, int>)
    requires forall y | y in succs :: (x, y) in g.order
    ensures forall c, y :: (c, y) in o <==> c in cs && y in succs
    ensures forall c, y | (c, y) in o :: o[(c, y)] == g.order[(x, y)]
  {
    var cset := set c | c in cs;
    map c, y | c in cset && y in succs :: (c, y) := g.order[(x, y)]
  }

  /** The edge orders after lines 138-153, before `x` is removed. */
  function RewiredOrder(g: Graph, x: NodeId, cs: seq<NodeId>, matched: set<NodeId>): map<Edge, int> {
    Shifted(g, x, |cs|, BoundaryPreds(g, x, matched))
      + InEdges(g, x, cs, BoundaryPreds(g, x, matched))
      + OutEdges(g, x, cs, BoundarySuccs(g, x, matched))
  }

  /** Lines 138-154 for a matched node `x` with copies `cs`: every boundary
      predecessor `p` makes room by shifting its out-edges ordered after `x` by
      `|cs| - 1` and takes the copies at `x`'s order onwards; every copy takes
      `x`'s boundary successors with their orders; then `x` is removed. The
      predecessors touch disjoint out-edge sets, so they are handled at once. */
  function Rewire(g: Graph, x: NodeId, cs: seq<NodeId>, matched: set<NodeId>): (r: Graph)
    requires Valid(g) && x in g.nodes && x !in cs
    requires forall c | c in cs :: c in g.value
    ensures Valid(r) && r.value == g.value && r.next == g.next
  {
    RemoveNode(Rewired(g, x, cs, matched), x)
  }

  /** The graph after lines 138-153, before `x` is removed: the copies join it
      as soon as an edge touches them. */
  function Rewired(g: Graph, x: NodeId, cs: seq<NodeId>, matched: set<NodeId>): (h: Graph)
    requires Valid(g) && x in g.nodes
    requires forall c | c in cs :: c in g.value
    ensures Valid(h) && h.value == g.value && h.next == g.next
    ensures h.order == RewiredOrder(g, x, cs, matched)
    ensures g.nodes <= h.nodes <= g.nodes + (set c | c in cs)
  {
    var added := BoundaryPreds(g, x, matched) != {} || BoundarySuccs(g, x, matched) != {};
    var nodes := g.nodes + (if added then set c | c in cs else {});
    RewiredEndpoints(g, x, cs, matched);
    Graph(nodes, g.value, RewiredOrder(g, x, cs, matched), g.next)
  }

  /** Every rewired edge is an old edge, an edge from a boundary predecessor to a
      copy, or an edge from a copy to a boundary successor. */
  lemma RewiredEndpoints(g: Graph, x: NodeId, cs: seq<NodeId>, matched: set<NodeId>)
    requires Valid(g) && x in g.nodes
    ensures forall e | e in RewiredOrder(g, x, cs, matched) ::
      || e in g.order
      || (e.0 in BoundaryPreds(g, x, matched) && e.1 in cs)
      || (e.0 in cs && e.1 in BoundarySuccs(g, x, matched))
  {
    var preds := BoundaryPreds(g, x, matched);
    var succs := BoundarySuccs(g, x, matched);
    var sh := Shifted(g, x, |cs|, preds);
    var ins := InEdges(g, x, cs, preds);
    var outs := OutEdges(g, x, cs, succs);
    var o := RewiredOrder(g, x, cs, matched);
    forall e | e in o
      ensures || e in g.order
              || (e.0 in preds && e.1 in cs)
              || (e.0 in cs && e.1 in succs)
    {
      if e in outs {
        assert e.0 in cs && e.1 in succs;
      } else if e in ins {
        assert e.0 in preds && e.1 in cs;
      } else {
        assert e in sh;
      }
    }
  }

  /** The edges after rewiring `x` are the rewired orders minus those touching `x`. */
  lemma RewireEdges(g: Graph, x: NodeId, cs: seq<NodeId>, matched: set<NodeId>)
    requires Valid(g) && x in g.nodes && x !in cs
    requires forall c | c in cs :: c in g.value
    ensures var r := Rewire(g, x, cs, matched); var o := RewiredOrder(g, x, cs, matched);
      && (forall e :: e in r.order <==> e in o && e.0 != x && e.1 != x)
      && (forall e | e in r.order :: r.order[e] == o[e])
  {
  }

  /** `x` leaves the graph and only copies join it. */
  lemma RewireNodes(g: Graph, x: NodeId, cs: seq<NodeId>, matched: set<NodeId>)
    requires Valid(g) && x in g.nodes && x !in cs
    requires forall c | c in cs :: c in g.value
    ensures var r := Rewire(g, x, cs, matched);
      x !in r.nodes && g.nodes - {x} <= r.nodes <= (g.nodes - {x}) + (set c | c in cs)
  {
  }

  /** One boundary predecessor and one copy position of `RewireWiresPredecessors`. */
  lemma RewireWiresOnePredecessor(g: Graph, x: NodeId, cs: seq<NodeId>, matched: set<NodeId>, p: NodeId, i: nat)
    requires Valid(g) && x in g.nodes && x !in cs && x in matched
    requires forall c | c in cs :: c in g.value
    requires forall a, b | 0 <= a < b < |cs| :: cs[a] != cs[b]
    requires p in BoundaryPreds(g, x, matched) && p !in cs && i < |cs|
    ensures (p, cs[i]) in Rewire(g, x, cs, matched).order
    ensures Rewire(g, x, cs, matched).order[(p, cs[i])] == g.order[(p, x)] + i
  {
    RewireWiresPredecessorTo(g, x, cs, matched, p, cs[i]);
    var j := LastIndex(cs, cs[i]);
    assert cs[j] == cs[i] && i <= j;
  }

  /** A boundary predecessor points at copy `c` at `x`'s old order plus the
      position of `c`'s last occurrence. */
  lemma RewireWiresPredecessorTo(g: Graph, x: NodeId, cs: seq<NodeId>, matched: set<NodeId>, p: NodeId, c: NodeId)
    requires Valid(g) && x in g.nodes && x !in cs && x in matched
    requires forall c | c in cs :: c in g.value
    requires p in BoundaryPreds(g, x, matched) && p !in cs && c in cs
    ensures (p, c) in Rewire(g, x, cs, matched).order
    ensures Rewire(g, x, cs, matched).order[(p, c)] == g.order[(p, x)] + LastIndex(cs, c)
  {
    RewireEdges(g, x, cs, matched);
    var preds := BoundaryPreds(g, x, matched);
    var ins := InEdges(g, x, cs, preds);
    var outs := OutEdges(g, x, cs, BoundarySuccs(g, x, matched));
    assert (p, c) in ins && (p, c) !in outs;
    var o := RewiredOrder(g, x, cs, matched);
    assert (p, c) in o && o[(p, c)] == ins[(p, c)];
    assert p != x && c != x;
    var r := Rewire(g, x, cs, matched);
    assert (p, c) in r.order;
  }

  /** Every boundary predecessor of `x` ends up with an edge to every copy, the
      copy at position i ordered i places after `x`'s old order. */
  lemma RewireWiresPredecessors(g: Graph, x: NodeId, cs: seq<NodeId>, matched: set<NodeId>)
    requires Valid(g) && x in g.nodes && x !in cs && x in matched
    requires forall c | c in cs :: c in g.value
    requires forall a, b | 0 <= a < b < |cs| :: cs[a] != cs[b]
    ensures var r := Rewire(g, x, cs, matched);
      forall p, i | p in BoundaryPreds(g, x, matched) && p !in cs && 0 <= i < |cs| ::
        (p, cs[i]) in r.order && r.order[(p, cs[i])] == g.order[(p, x)] + i
  {
    forall p, i | p in BoundaryPreds(g, x, matched) && p !in cs && 0 <= i < |cs|
      ensures (p, cs[i]) in Rewire(g, x, cs, matched).order
      ensures Rewire(g, x, cs, matched).order[(p, cs[i])] == g.order[(p, x)] + i
    {
      RewireWiresOnePredecessor(g, x, cs, matched, p, i);
    }
  }

  /** One copy and one boundary successor of `RewireWiresSuccessors`. */
  lemma RewireWiresOneSuccessor(g: Graph, x: NodeId, cs: seq<NodeId>, matched: set<NodeId>, c: NodeId, y: NodeId)
    requires Valid(g) && x in g.nodes && x !in cs && x in matched
    requires forall c | c in cs :: c in g.value
    requires c in cs && y in BoundarySuccs(g, x, matched)
    ensures (c, y) in Rewire(g, x, cs, matched).order
    ensures Rewire(g, x, cs, matched).order[(c, y)] == g.order[(x, y)]
  {
    RewireEdges(g, x, cs, matched);
    var outs := OutEdges(g, x, cs, BoundarySuccs(g, x, matched));
    assert (c, y) in outs;
    var o := RewiredOrder(g, x, cs, matched);
    assert (c, y) in o && o[(c, y)] == outs[(c, y)];
    assert c != x && y != x;
    var r := Rewire(g, x, cs, matched);
    assert (c, y) in r.order;
  }

  /** Every copy ends up with an edge to every boundary successor of `x`, with
      the order `x`'s edge had. */
  lemma RewireWiresSuccessors(g: Graph, x: NodeId, cs: seq<NodeId>, matched: set<NodeId>)
    requires Valid(g) && x in g.nodes && x !in cs && x in matched
    requires forall c | c in cs :: c in g.value
    ensures var r := Rewire(g, x, cs, matched);
      forall c, y | c in cs && y in BoundarySuccs(g, x, matched) ::
        (c, y) in r.order && r.order[(c, y)] == g.order[(x, y)]
  {
    forall c, y | c in cs && y in BoundarySuccs(g, x, matched)
      ensures (c, y) in Rewire(g, x, cs, matched).order
      ensures Rewire(g, x, cs, matched).order[(c, y)] == g.order[(x, y)]
    {
      RewireWiresOneSuccessor(g, x, cs, matched, c, y);
    }
  }

  /** Every edge rewiring adds touches a copy. */
  lemma RewireAddsOnlyCopyEdges(g: Graph, x: NodeId, cs: seq<NodeId>, matched: set<NodeId>)
    requires Valid(g) && x in g.nodes && x !in cs
    requires forall c | c in cs :: c in g.value
    ensures var r := Rewire(g, x, cs, matched);
      forall e | e in r.order && e !in g.order :: e.0 in cs || e.1 in cs
  {
    RewireEdges(g, x, cs, matched);
  }

  /** Edges whose source is neither `x`, a boundary predecessor nor a copy, and
      whose target is not `x`, keep their order. */
  lemma RewireFrame(g: Graph, x: NodeId, cs: seq<NodeId>, matched: set<NodeId>)
    requires Valid(g) && x in g.nodes && x !in cs
    requires forall c | c in cs :: c in g.value
    ensures var r := Rewire(g, x, cs, matched);
      forall e | e in g.order && e.0 !in BoundaryPreds(g, x, matched) && e.0 !in cs && e.0 != x && e.1 != x ::
        e in r.order && r.order[e] == g.order[e]
  {
    RewireEdges(g, x, cs, matched);
  }

  /** An old edge `(p, y)` from a node that is not a copy, to a node that is neither
      `x` nor a copy, survives rewiring; it is shifted exactly when `p` is a
      boundary predecessor and the edge came after `x`. */
  lemma RewireKeepsOldEdge(g: Graph, x: NodeId, cs: seq<NodeId>, matched: set<NodeId>, p: NodeId, y: NodeId)
    requires Valid(g) && x in g.nodes && x !in cs
    requires forall c | c in cs :: c in g.value
    requires (p, y) in g.order && p != x && y != x && p !in cs && y !in cs
    ensures (p, y) in Rewire(g, x, cs, matched).order
    ensures Rewire(g, x, cs, matched).order[(p, y)] ==
      if p in BoundaryPreds(g, x, matched) then ShiftedOrder(g.order[(p, y)], g.order[(p, x)], |cs|) else g.order[(p, y)]
  {
    RewireEdges(g, x, cs, matched);
    var preds := BoundaryPreds(g, x, matched);
    var sh := Shifted(g, x, |cs|, preds);
    var ins := InEdges(g, x, cs, preds);
    var outs := OutEdges(g, x, cs, BoundarySuccs(g, x, matched));
    assert (p, y) in sh && (p, y) !in ins && (p, y) !in outs;
    var o := RewiredOrder(g, x, cs, matched);
    assert (p, y) in o && o[(p, y)] == sh[(p, y)];
    var r := Rewire(g, x, cs, matched);
    assert (p, y) in r.order;
  }

  /** An out-edge of a node `p` other than `x` and the copies after rewiring is
      an old edge with its old order unless `p` is a boundary predecessor; for a
      boundary predecessor, an edge to a copy is new and sits at `x`'s old order
      plus the copy's position. */
  lemma RewireOutEdgeOrigin(g: Graph, x: NodeId, cs: seq<NodeId>, matched: set<NodeId>, p: NodeId, y: NodeId)
    requires Valid(g) && x in g.nodes && x !in cs
    requires forall c | c in cs :: c in g.value
    requires p != x && p !in cs
    requires (p, y) in Rewire(g, x, cs, matched).order
    ensures y != x
    ensures y !in cs || p !in BoundaryPreds(g, x, matched) ==> (p, y) in g.order
    ensures p !in BoundaryPreds(g, x, matched) ==> Rewire(g, x, cs, matched).order[(p, y)] == g.order[(p, y)]
    ensures y in cs && p in BoundaryPreds(g, x, matched) ==>
      Rewire(g, x, cs, matched).order[(p, y)] == g.order[(p, x)] + LastIndex(cs, y)
  {
    RewireEdges(g, x, cs, matched);
    var preds := BoundaryPreds(g, x, matched);
    var sh := Shifted(g, x, |cs|, preds);
    var ins := InEdges(g, x, cs, preds);
    var outs := OutEdges(g, x, cs, BoundarySuccs(g, x, matched));
    var o := RewiredOrder(g, x, cs, matched);
    assert (p, y) in o && (p, y) !in outs;
    if p in preds {
      if y in cs {
        assert (p, y) in ins;
        assert o[(p, y)] == ins[(p, y)];
      }
    } else {
      assert (p, y) !in ins;
      assert (p, y) in sh && o[(p, y)] == sh[(p, y)];
    }
  }

  /** Shifting past `at` by `n - 1` with `n >= 1` is strictly increasing. */
  lemma ShiftedOrderMonotone(u: int, v: int, at: int, n: nat)
    requires n >= 1
    ensures u < v <==> ShiftedOrder(u, at, n) < ShiftedOrder(v, at, n)
  {
  }

  /** A shifted old order never equals a position in the gap `[at, at + n)`
      unless it was `at` itself. */
  lemma ShiftedOrderAvoidsGap(u: int, at: int, n: nat, k: nat)
    requires n >= 1 && k < n && u != at
    ensures ShiftedOrder(u, at, n) != at + k
  {
  }

  /** The order rewiring gives the edge `(p, y)` for a node `p` other than `x`
      and the copies. */
  function RewiredAt(g: Graph, x: NodeId, cs: seq<NodeId>, matched: set<NodeId>, p: NodeId, y: NodeId): int {
    if p !in BoundaryPreds(g, x, matched) then OrderAt(g, p, y)
    else if y in cs then OrderAt(g, p, x) + LastIndex(cs, y)
    else ShiftedOrder(OrderAt(g, p, y), OrderAt(g, p, x), |cs|)
  }

  /** `RewireOutEdgeOrder` for a node that is not a boundary predecessor. */
  lemma RewireOutEdgeOrderOutside(g: Graph, x: NodeId, cs: seq<NodeId>, matched: set<NodeId>, p: NodeId, y: NodeId)
    requires Valid(g) && x in g.nodes && x !in cs
    requires forall c | c in cs :: c in g.value
    requires p != x && p !in cs && p !in BoundaryPreds(g, x, matched)
    requires (p, y) in Rewire(g, x, cs, matched).order
    ensures Rewire(g, x, cs, matched).order[(p, y)] == RewiredAt(g, x, cs, matched, p, y)
  {
    RewireOutEdgeOrigin(g, x, cs, matched, p, y);
    assert g.order[(p, y)] == OrderAt(g, p, y);
  }

  /** `RewireOutEdgeOrder` for an edge from a boundary predecessor to a copy. */
  lemma RewireOutEdgeOrderToCopy(g: Graph, x: NodeId, cs: seq<NodeId>, matched: set<NodeId>, p: NodeId, y: NodeId)
    requires Valid(g) && x in g.nodes && x !in cs
    requires forall c | c in cs :: c in g.value
    requires p != x && p !in cs && p in BoundaryPreds(g, x, matched) && y in cs
    requires (p, y) in Rewire(g, x, cs, matched).order
    ensures Rewire(g, x, cs, matched).order[(p, y)] == RewiredAt(g, x, cs, matched, p, y)
  {
    var v := Rewire(g, x, cs, matched).order[(p, y)];
    assert v == g.order[(p, x)] + LastIndex(cs, y) by {
      RewireOutEdgeOrigin(g, x, cs, matched, p, y);
    }
    RewiredAtToCopy(g, x, cs, matched, p, y, v);
  }

  /** `RewiredAt` of an edge from a boundary predecessor to a copy. */
  lemma RewiredAtToCopy(g: Graph, x: NodeId, cs: seq<NodeId>, matched: set<NodeId>, p: NodeId, y: NodeId, v: int)
    requires p in BoundaryPreds(g, x, matched) && y in cs && v == g.order[(p, x)] + LastIndex(cs, y)
    ensures v == RewiredAt(g, x, cs, matched, p, y)
  {
  }

  /** `RewireOutEdgeOrder` for an old edge of a boundary predecessor. */
  lemma RewireOutEdgeOrderShifted(g: Graph, x: NodeId, cs: seq<NodeId>, matched: set<NodeId>, p: NodeId, y: NodeId)
    requires Valid(g) && x in g.nodes && x !in cs
    requires forall c | c in cs :: c in g.value
    requires p != x && p !in cs && p in BoundaryPreds(g, x, matched) && y !in cs
    requires (p, y) in Rewire(g, x, cs, matched).order
    ensures Rewire(g, x, cs, matched).order[(p, y)] == RewiredAt(g, x, cs, matched, p, y)
  {
    RewireOutEdgeOrigin(g, x, cs, matched, p, y);
    RewireKeepsOldEdge(g, x, cs, matched, p, y);
    assert g.order[(p, x)] == OrderAt(g, p, x) && g.order[(p, y)] == OrderAt(g, p, y);
  }

  /** Every out-edge of a node other than `x` and the copies after rewiring has
      the order `RewiredAt` gives it. */
  lemma RewireOutEdgeOrder(g: Graph, x: NodeId, cs: seq<NodeId>, matched: set<NodeId>, p: NodeId, y: NodeId)
    requires Valid(g) && x in g.nodes && x !in cs
    requires forall c | c in cs :: c in g.value
    requires p != x && p !in cs
    requires (p, y) in Rewire(g, x, cs, matched).order
    ensures y != x && (y !in cs || p !in BoundaryPreds(g, x, matched) ==> (p, y) in g.order)
    ensures Rewire(g, x, cs, matched).order[(p, y)] == RewiredAt(g, x, cs, matched, p, y)
  {
    RewireOutEdgeOrigin(g, x, cs, matched, p, y);
    if p !in BoundaryPreds(g, x, matched) {
      RewireOutEdgeOrderOutside(g, x, cs, matched, p, y);
    } else if y in cs {
      RewireOutEdgeOrderToCopy(g, x, cs, matched, p, y);
    } else {
      RewireOutEdgeOrderShifted(g, x, cs, matched, p, y);
    }
  }

  /** `RewiredAt` is injective on the out-edges of a node whose old orders are
      distinct. */
  lemma RewiredAtDistinct(g: Graph, x: NodeId, cs: seq<NodeId>, matched: set<NodeId>, p: NodeId, a: NodeId, b: NodeId)
    requires |cs| >= 1 && x !in cs && DistinctOrders(g, p) && a != b && a != x && b != x
    requires a !in cs || p !in BoundaryPreds(g, x, matched) ==> (p, a) in g.order
    requires b !in cs || p !in BoundaryPreds(g, x, matched) ==> (p, b) in g.order
    ensures RewiredAt(g, x, cs, matched, p, a) != RewiredAt(g, x, cs, matched, p, b)
  {
    if p in BoundaryPreds(g, x, matched) {
      var at := OrderAt(g, p, x);
      assert at == g.order[(p, x)];
      if a in cs && b in cs {
        assert LastIndex(cs, a) != LastIndex(cs, b);
      } else if a in cs {
        ShiftedOrderAvoidsGap(g.order[(p, b)], at, |cs|, LastIndex(cs, a));
      } else if b in cs {
        ShiftedOrderAvoidsGap(g.order[(p, a)], at, |cs|, LastIndex(cs, b));
      } else {
        ShiftedOrderMonotone(g.order[(p, a)], g.order[(p, b)], at, |cs|);
        ShiftedOrderMonotone(g.order[(p, b)], g.order[(p, a)], at, |cs|);
      }
    }
  }

  /** Rewiring keeps the out-edge orders of every node other than `x` and the
      copies pairwise distinct: the copies fill the gap the shift opens. */
  lemma RewireKeepsDistinctOrders(g: Graph, x: NodeId, cs: seq<NodeId>, matched: set<NodeId>, p: NodeId)
    requires Valid(g) && x in g.nodes && x !in cs && |cs| >= 1
    requires forall c | c in cs :: c in g.value
    requires p != x && p !in cs
    requires DistinctOrders(g, p)
    ensures DistinctOrders(Rewire(g, x, cs, matched), p)
  {
    var r := Rewire(g, x, cs, matched);
    forall a, b | (p, a) in r.order && (p, b) in r.order && a != b
      ensures r.order[(p, a)] != r.order[(p, b)]
    {
      RewireOutEdgeOrder(g, x, cs, matched, p, a);
      RewireOutEdgeOrder(g, x, cs, matched, p, b);
      RewiredAtDistinct(g, x, cs, matched, p, a, b);
    }
  }

  /** Rewiring keeps the relative order of the surviving old children of every
      node other than `x` and the copies. */
  lemma RewireKeepsSiblingOrder(g: Graph, x: NodeId, cs: seq<NodeId>, matched: set<NodeId>, p: NodeId, a: NodeId, b: NodeId)
    requires Valid(g) && x in g.nodes && x !in cs && |cs| >= 1
    requires forall c | c in cs :: c in g.value
    requires p != x && p !in cs && a != x && b != x && a !in cs && b !in cs
    requires (p, a) in g.order && (p, b) in g.order
    ensures var r := Rewire(g, x, cs, matched);
      (p, a) in r.order && (p, b) in r.order &&
      (g.order[(p, a)] < g.order[(p, b)] <==> r.order[(p, a)] < r.order[(p, b)])
  {
    RewireKeepsOldEdge(g, x, cs, matched, p, a);
    RewireKeepsOldEdge(g, x, cs, matched, p, b);
    if p in BoundaryPreds(g, x, matched) {
      ShiftedOrderMonotone(g.order[(p, a)], g.order[(p, b)], g.order[(p, x)], |cs|);
    }
  }

  /** Lines 156-161 for a matched node `x` without copies: it is removed when it
      has no out-edge and either no in-edge or the root among its predecessors;
      otherwise it is left as it is. */
  function Collect(g: Graph, x: NodeId): (r: Graph)
    requires Valid(g)
    ensures Valid(r)
    ensures x !in r.nodes <==> x !in g.nodes || (!HasOutEdge(g, x) && (!HasInEdge(g, x) || (Root, x) in g.order))
    ensures x in r.nodes ==> r == g
    ensures x !in r.nodes ==> r == RemoveNode(g, x)
  {
    if !HasOutEdge(g, x) && (!HasInEdge(g, x) || (Root, x) in g.order) then RemoveNode(g, x) else g
  }

  /** What phase three relies on: every list of `_cur_node_dict` is non-empty and
      holds allocated nodes numbered from `lo` upwards, above every node the
      phase visits. */
  ghost predicate CopiesAbove(g: Graph, cur: map<NodeId, seq<NodeId>>, lo: NodeId) {
    forall k | k in cur :: |cur[k]| >= 1 && forall c | c in cur[k] :: c in g.value && c >= lo
  }

  /** One iteration of the loop at line 136 for the matched target node `x`: its
      input-pattern node `rev[x]` has copies, so it is rewired, or it has none and
      is collected. networkx raises for a node no longer in the graph. */
  function Step(g: Graph, cur: map<NodeId, seq<NodeId>>, rev: map<NodeId, NodeId>, matched: set<NodeId>,
                ghost lo: NodeId, x: NodeId): (r: Result<Graph>)
    requires Valid(g) && CopiesAbove(g, cur, lo) && x < lo && x in rev
    ensures r.Ok? <==> x in g.nodes
    ensures r.Err? ==> r.error == NodeNotInGraph
    ensures r.Ok? ==> Valid(r.value) && r.value.value == g.value && r.value.next == g.next
  {
    if x !in g.nodes then Err(NodeNotInGraph)
    else if rev[x] in cur then Ok(Rewire(g, x, cur[rev[x]], matched))
    else Ok(Collect(g, x))
  }

  /** The loop at lines 136-161 over the matched target nodes `xs`, in the order
      the reverse dictionary lists them. */
  function ReattachAll(g: Graph, cur: map<NodeId, seq<NodeId>>, rev: map<NodeId, NodeId>, matched: set<NodeId>,
                       ghost lo: NodeId, xs: seq<NodeId>): (r: Result<Graph>)
    requires Valid(g) && CopiesAbove(g, cur, lo)
    requires forall x | x in xs :: x < lo && x in rev
    ensures r.Err? ==> r.error == NodeNotInGraph
    ensures r.Ok? ==> Valid(r.value) && r.value.value == g.value && r.value.next == g.next
    decreases |xs|
  {
    if xs == [] then Ok(g)
    else
      assert xs[0] in xs && forall y | y in xs[1..] :: y in xs;
      var g1 :- Step(g, cur, rev, matched, lo, xs[0]);
      ReattachAll(g1, cur, rev, matched, lo, xs[1..])
  }

  /** Rewiring leaves `x` without edges. */
  lemma RewireIsolates(g: Graph, x: NodeId, cs: seq<NodeId>, matched: set<NodeId>, e: Edge)
    requires Valid(g) && x in g.nodes && x !in cs
    requires forall c | c in cs :: c in g.value
    requires e in Rewire(g, x, cs, matched).order
    ensures e.0 != x && e.1 != x
  {
    RewireEdges(g, x, cs, matched);
  }

  /** A step keeps the out-edge orders of every node below `lo` pairwise distinct. */
  lemma StepKeepsDistinctOrders(g: Graph, cur: map<NodeId, seq<NodeId>>, rev: map<NodeId, NodeId>, matched: set<NodeId>,
                                lo: NodeId, x: NodeId, p: NodeId)
    requires Valid(g) && CopiesAbove(g, cur, lo) && x < lo && x in rev
    requires Step(g, cur, rev, matched, lo, x).Ok?
    requires p < lo && DistinctOrders(g, p)
    ensures DistinctOrders(Step(g, cur, rev, matched, lo, x).value, p)
  {
    var r := Step(g, cur, rev, matched, lo, x).value;
    if rev[x] in cur {
      var cs := cur[rev[x]];
      assert x !in cs;
      if p != x {
        RewireKeepsDistinctOrders(g, x, cs, matched, p);
      }
    }
  }

  /** An edge between two nodes below `lo` after a step was there before it, with
      neither end `x` when `x` was rewired, and the relative order of two such
      siblings is what it was. */
  lemma StepKeepsOldEdges(g: Graph, cur: map<NodeId, seq<NodeId>>, rev: map<NodeId, NodeId>, matched: set<NodeId>,
                          lo: NodeId, x: NodeId, p: NodeId, a: NodeId, b: NodeId)
    requires Valid(g) && CopiesAbove(g, cur, lo) && x < lo && x in rev
    requires Step(g, cur, rev, matched, lo, x).Ok?
    requires p < lo && a < lo && b < lo
    requires (p, a) in Step(g, cur, rev, matched, lo, x).value.order
    requires (p, b) in Step(g, cur, rev, matched, lo, x).value.order
    ensures (p, a) in g.order && (p, b) in g.order
    ensures var r := Step(g, cur, rev, matched, lo, x).value;
      g.order[(p, a)] < g.order[(p, b)] <==> r.order[(p, a)] < r.order[(p, b)]
  {
    if rev[x] in cur {
      var cs := cur[rev[x]];
      assert x !in cs && p !in cs && a !in cs && b !in cs;
      RewireIsolates(g, x, cs, matched, (p, a));
      RewireIsolates(g, x, cs, matched, (p, b));
      RewireOutEdgeOrigin(g, x, cs, matched, p, a);
      RewireOutEdgeOrigin(g, x, cs, matched, p, b);
      RewireKeepsSiblingOrder(g, x, cs, matched, p, a, b);
    }
  }

  /** A step removes only `x`, removes it whenever it is rewired, and adds only
      nodes from `lo` upwards. */
  lemma StepNodes(g: Graph, cur: map<NodeId, seq<NodeId>>, rev: map<NodeId, NodeId>, matched: set<NodeId>,
                  lo: NodeId, x: NodeId)
    requires Valid(g) && CopiesAbove(g, cur, lo) && x < lo && x in rev
    requires Step(g, cur, rev, matched, lo, x).Ok?
    ensures var r := Step(g, cur, rev, matched, lo, x).value;
      && g.nodes - {x} <= r.nodes
      && (forall n | n in r.nodes :: n in g.nodes || n >= lo)
      && (rev[x] in cur ==> x !in r.nodes)
  {
    if rev[x] in cur {
      var cs := cur[rev[x]];
      assert x !in cs;
      RewireNodes(g, x, cs, matched);
    }
  }

  /** Phase three keeps the out-edge orders of every node below `lo` pairwise
      distinct. */
  lemma {:induction false} ReattachKeepsDistinctOrders(g: Graph, cur: map<NodeId, seq<NodeId>>, rev: map<NodeId, NodeId>,
                                                       matched: set<NodeId>, lo: NodeId, xs: seq<NodeId>, p: NodeId)
    requires Valid(g) && CopiesAbove(g, cur, lo)
    requires forall x | x in xs :: x < lo && x in rev
    requires ReattachAll(g, cur, rev, matched, lo, xs).Ok?
    requires p < lo && DistinctOrders(g, p)
    ensures DistinctOrders(ReattachAll(g, cur, rev, matched, lo, xs).value, p)
    decreases |xs|
  {
    if xs != [] {
      assert xs[0] in xs && forall y | y in xs[1..] :: y in xs;
      var g1 := Step(g, cur, rev, matched, lo, xs[0]).value;
      StepKeepsDistinctOrders(g, cur, rev, matched, lo, xs[0], p);
      ReattachKeepsDistinctOrders(g1, cur, rev, matched, lo, xs[1..], p);
    }
  }

  /** Phase three adds no edge between two nodes below `lo` and keeps the relative
      order of any two such siblings that survive it. */
  lemma {:induction false} ReattachKeepsOldEdges(g: Graph, cur: map<NodeId, seq<NodeId>>, rev: map<NodeId, NodeId>,
                                                 matched: set<NodeId>, lo: NodeId, xs: seq<NodeId>,
                                                 p: NodeId, a: NodeId, b: NodeId)
    requires Valid(g) && CopiesAbove(g, cur, lo)
    requires forall x | x in xs :: x < lo && x in rev
    requires ReattachAll(g, cur, rev, matched, lo, xs).Ok?
    requires p < lo && a < lo && b < lo
    requires (p, a) in ReattachAll(g, cur, rev, matched, lo, xs).value.order
    requires (p, b) in ReattachAll(g, cur, rev, matched, lo, xs).value.order
    ensures (p, a) in g.order && (p, b) in g.order
    ensures var r := ReattachAll(g, cur, rev, matched, lo, xs).value;
      g.order[(p, a)] < g.order[(p, b)] <==> r.order[(p, a)] < r.order[(p, b)]
    decreases |xs|
  {
    if xs != [] {
      assert xs[0] in xs && forall y | y in xs[1..] :: y in xs;
      var g1 := Step(g, cur, rev, matched, lo, xs[0]).value;
      ReattachKeepsOldEdges(g1, cur, rev, matched, lo, xs[1..], p, a, b);
      StepKeepsOldEdges(g, cur, rev, matched, lo, xs[0], p, a, b);
    }
  }

  /** Phase three removes only visited nodes, removes every visited node that has
      copies, and adds only nodes from `lo` upwards. */
  lemma {:induction false} ReattachNodes(g: Graph, cur: map<NodeId, seq<NodeId>>, rev: map<NodeId, NodeId>,
                                         matched: set<NodeId>, lo: NodeId, xs: seq<NodeId>)
    requires Valid(g) && CopiesAbove(g, cur, lo)
    requires forall x | x in xs :: x < lo && x in rev
    requires ReattachAll(g, cur, rev, matched, lo, xs).Ok?
    ensures var r := ReattachAll(g, cur, rev, matched, lo, xs).value;
      && (forall n | n in g.nodes && n !in xs :: n in r.nodes)
      && (forall n | n in r.nodes :: n in g.nodes || n >= lo)
      && (forall x | x in xs && rev[x] in cur :: x !in r.nodes)
    decreases |xs|
  {
    if xs != [] {
      assert xs[0] in xs && forall y | y in xs[1..] :: y in xs;
      var g1 := Step(g, cur, rev, matched, lo, xs[0]).value;
      StepNodes(g, cur, rev, matched, lo, xs[0]);
      ReattachNodes(g1, cur, rev, matched, lo, xs[1..]);
      var r := ReattachAll(g, cur, rev, matched, lo, xs).value;
      assert r == ReattachAll(g1, cur, rev, matched, lo, xs[1..]).value;
      forall x | x in xs && rev[x] in cur
        ensures x !in r.nodes
      {
        if x !in xs[1..] {
          assert x == xs[0];
        }
      }
    }
  }

  /** Phase three fails only by visiting a node no longer in the graph: it
      succeeds whenever the visited nodes are distinct nodes of the graph, and
      only if every visited node is one. */
  lemma {:induction false} ReattachAllSucceeds(g: Graph, cur: map<NodeId, seq<NodeId>>, rev: map<NodeId, NodeId>,
                                               matched: set<NodeId>, lo: NodeId, xs: seq<NodeId>)
    requires Valid(g) && CopiesAbove(g, cur, lo)
    requires forall x | x in xs :: x < lo && x in rev
    ensures ReattachAll(g, cur, rev, matched, lo, xs).Ok? ==> forall x | x in xs :: x in g.nodes
    ensures (forall i, j | 0 <= i < j < |xs| :: xs[i] != xs[j]) && (forall x | x in xs :: x in g.nodes) ==>
              ReattachAll(g, cur, rev, matched, lo, xs).Ok?
    decreases |xs|
  {
    if xs != [] {
      assert xs[0] in xs && forall y | y in xs[1..] :: y in xs;
      var st := Step(g, cur, rev, matched, lo, xs[0]);
      if st.Ok? {
        var g1 := st.value;
        StepNodes(g, cur, rev, matched, lo, xs[0]);
        ReattachAllSucceeds(g1, cur, rev, matched, lo, xs[1..]);
        if (forall i, j | 0 <= i < j < |xs| :: xs[i] != xs[j]) && (forall x | x in xs :: x in g.nodes) {
          DistinctTailSurvives(xs, g.nodes, g1.nodes);
        }
      }
    }
  }

  /** When the first of distinct nodes `xs` is the only one that may leave the
      node set, the rest are distinct and still there. */
  lemma DistinctTailSurvives(xs: seq<NodeId>, nodes: set<NodeId>, nodes': set<NodeId>)
    requires xs != [] && forall i, j | 0 <= i < j < |xs| :: xs[i] != xs[j]
    requires (forall x | x in xs :: x in nodes) && nodes - {xs[0]} <= nodes'
    ensures forall i, j | 0 <= i < j < |xs[1..]| :: xs[1..][i] != xs[1..][j]
    ensures forall y | y in xs[1..] :: y in nodes'
  {
    forall y | y in xs[1..]
      ensures y in nodes'
    {
      var k :| 0 <= k < |xs[1..]| && xs[1..][k] == y;
      assert xs[k + 1] == y;
    }
    assert forall i, j | 0 <= i < j < |xs[1..]| :: xs[1..][i] == xs[i + 1] && xs[1..][j] == xs[j + 1];
  }

  /** Line 137 as written tests whether the target node `x` is itself a key of
      `_cur_node_dict`. Those keys are input-pattern nodes, and nodes compare by
      identity, so the test never holds: every matched node goes down the
      collection branch, and its copies are never wired in. */
  function AsWrittenStep(g: Graph, x: NodeId): (r: Result<Graph>)
    requires Valid(g)
    ensures r.Ok? <==> x in g.nodes
    ensures r.Ok? ==> Valid(r.value) && r.value.value == g.value && r.value.next == g.next
    ensures r.Ok? ==> r.value.nodes <= g.nodes
    ensures r.Ok? ==> forall e | e in r.value.order :: e in g.order && r.value.order[e] == g.order[e]
    ensures r.Ok? ==> (x in r.value.nodes <==> HasOutEdge(g, x) || (HasInEdge(g, x) && (Root, x) !in g.order))
    ensures r.Ok? && x in r.value.nodes ==> r.value == g
  {
    if x !in g.nodes then Err(NodeNotInGraph) else Ok(Collect(g, x))
  }

  /** The loop at line 136 as written: every visited node is collected, so the
      phase adds no node and no edge, and no copy of phase two ever joins the
      graph; boundary edges stay on the matched nodes that keep them. */
  function AsWrittenReattachAll(g: Graph, xs: seq<NodeId>): (r: Result<Graph>)
    requires Valid(g)
    ensures r.Err? ==> r.error == NodeNotInGraph
    ensures r.Ok? ==> Valid(r.value) && r.value.value == g.value && r.value.next == g.next
    ensures r.Ok? ==> (forall x | x in xs :: x in g.nodes) && r.value.nodes <= g.nodes
    ensures r.Ok? ==> forall e | e in r.value.order :: e in g.order && r.value.order[e] == g.order[e]
    decreases |xs|
  {
    if xs == [] then Ok(g)
    else
      var g1 :- AsWrittenStep(g, xs[0]);
      assert forall y | y in xs :: y == xs[0] || y in xs[1..];
      AsWrittenReattachAll(g1, xs[1..])
  }

  /** Target `f(hello)` below the root, with 6 the matched `hello` node and 7 its
      copy, made for input-pattern node 1. */
  function FindingGraph(): (g: Graph)
    ensures Valid(g)
  {
    Graph({Root, 5, 6}, map[5 := "f", 6 := "hello", 7 := "hello"], map[(Root, 5) := 0, (5, 6) := 0], 8)
  }

  /** On that target, the step as written keeps the matched node 6 under `f` and
      leaves its copy 7 out of the graph. */
  lemma AsWrittenStepDropsCopies()
    ensures var g := FindingGraph();
      && AsWrittenStep(g, 6) == Ok(g)
      && (5, 6) in AsWrittenStep(g, 6).value.order && 7 !in AsWrittenStep(g, 6).value.nodes
  {
    var g := FindingGraph();
    assert (5, 6) in g.order;
    assert HasInEdge(g, 6);
  }

  /** The as-written and the corrected step agree on the matched nodes whose
      input node has no copies; on the others the as-written step keeps every
      copy of `x` that is not yet in the graph out of it, where the corrected one
      wires them in (`StepWiresCopies`, `RewireWiresSuccessors`) whenever `x`
      had a boundary edge. */
  lemma AsWrittenStepDiffers(g: Graph, cur: map<NodeId, seq<NodeId>>, rev: map<NodeId, NodeId>, matched: set<NodeId>,
                             lo: NodeId, x: NodeId)
    requires Valid(g) && CopiesAbove(g, cur, lo) && x < lo && x in rev
    ensures rev[x] !in cur ==> Step(g, cur, rev, matched, lo, x) == AsWrittenStep(g, x)
    ensures AsWrittenStep(g, x).Ok? ==>
      forall c | rev[x] in cur && c in cur[rev[x]] && c !in g.nodes :: c !in AsWrittenStep(g, x).value.nodes
  {
  }

  /** The corrected step puts the copies of a rewired node in its place: `x`
      leaves the graph, and every boundary predecessor below `lo` points at every
      copy, at `x`'s old order plus the copy's position. */
  lemma StepWiresCopies(g: Graph, cur: map<NodeId, seq<NodeId>>, rev: map<NodeId, NodeId>, matched: set<NodeId>,
                        lo: NodeId, x: NodeId, p: NodeId, c: NodeId)
    requires Valid(g) && CopiesAbove(g, cur, lo) && x < lo && x in rev && x in matched
    requires x in g.nodes && rev[x] in cur
    requires p in BoundaryPreds(g, x, matched) && p < lo && c in cur[rev[x]]
    ensures var r := Step(g, cur, rev, matched, lo, x);
      && r.Ok? && x !in r.value.nodes
      && (p, c) in r.value.order && r.value.order[(p, c)] == g.order[(p, x)] + LastIndex(cur[rev[x]], c)
  {
    var cs := cur[rev[x]];
    assert x !in cs && p !in cs;
    RewireWiresPredecessorTo(g, x, cs, matched, p, c);
    RewireNodes(g, x, cs, matched);
  }
}

=== FILE: results.dfy ===
/** Failure-compatible result of a rewrite step, and the ways a step can fail. */
module Results {

  /** The exceptions the rule engine can raise, each named after its cause. */
  datatype RuleError =
    | MissingKey      // a dictionary lookup (match, correspondence, payload index) for an absent key
    | MissingEdge     // removing an edge the target graph does not have
    | NodeNotInGraph  // a degree or neighbour query on a node the target graph does not hold
    | NoPayload       // reading the payload of the root sentinel, which carries none
    | RecursionLimit  // descending through a pattern that is not acyclic

  datatype Option<+T> = None | Some(value: T)

  datatype Result<+T> = Ok(value: T) | Err(error: RuleError) {

    predicate IsFailure() {
      Err?
    }

    function PropagateFailure<U>(): Result<U>
      requires Err?
    {
      Err(error)
    }

    function Extract(): T
      requires Ok?
    {
      value
    }
  }
}

=== FILE: rule.dfy ===
/** `Rule`: a rewrite rule built from an input and an output pattern, and its
    in-place application to a target graph under a caller-supplied match. */
module RuleEngine {
  import opened Results
  import opened OrderedGraph
  import opened Correspondence
  import opened Matches
  import opened StripMatched
  import opened Instantiate
  import opened Reattach

  /** A rule: its two patterns and the node dictionaries built from them. */
  datatype Rule = Rule(input: Pattern, output: Pattern, dicts: NodeDicts)

  /** What construction guarantees of a rule. */
  ghost predicate WellFormed(rule: Rule) {
    && ValidPattern(rule.input) && ValidPattern(rule.output)
    && IsNodeDicts(rule.input, rule.output, rule.dicts)
  }

  /** `Rule.__init__`: keep the two patterns and build the node dictionaries;
      construction fails when a payload both patterns mention is missing from the
      input pattern's nodes. */
  method NewRule(pin: Pattern, pout: Pattern) returns (r: Result<Rule>)
    requires ValidPattern(pin) && ValidPattern(pout)
    ensures r.Ok? <==> forall obj | obj in pin.objs * pout.objs :: InNodeOf(pin, obj).Some?
    ensures r.Ok? ==> r.value.input == pin && r.value.output == pout && WellFormed(r.value)
  {
    var d := CreateNodeDict(pin, pout);
    if d.Err? {
      return Err(d.error);
    }
    return Ok(Rule(pin, pout, d.value));
  }

  /** What `apply` needs of its arguments: well-formed patterns and target, and a
      match whose target nodes are nodes of the program (the root or allocated). */
  ghost predicate CanApply(rule: Rule, g: Graph, items: Match) {
    && ValidPattern(rule.input) && ValidPattern(rule.output) && Valid(g)
    && DistinctKeys(items)
    && forall i | 0 <= i < |items| :: Allocated(g, items[i].1)
  }

  /** Every node the match sends an input node to was allocated before the
      rewrite, so its number is below the first copy's. */
  lemma MatchedBelowNext(rule: Rule, g: Graph, items: Match)
    requires CanApply(rule, g, items)
    ensures forall k | k in Image(items) :: Allocated(g, Image(items)[k])
    ensures forall x | x in TargetOrder(items) :: x < g.next && x in Reverse(items)
  {
    ImageFromItems(items);
  }

  /** After phase two, every list of `_cur_node_dict` holds allocated copies
      numbered from the target's old allocation counter upwards. */
  lemma CopiesAboveAfterBuild(pout: Pattern, backward: map<NodeId, NodeId>, m: map<NodeId, NodeId>, g1: Graph, s: Build)
    requires Instantiates(pout, backward, m, g1, s)
    ensures CopiesAbove(s.graph, s.copies, g1.next)
  {
    forall k | k in s.copies
      ensures |s.copies[k]| >= 1 && forall c | c in s.copies[k] :: c in s.graph.value && c >= g1.next
    {
      assert CopiesOk(backward, s);
    }
  }

  /** Lines 121-161 with `deepcopy_graph` false: strip the matched structure,
      instantiate the output pattern, then reattach the boundary edges of each
      matched target node in the order the reverse dictionary lists them. */
  function Apply(rule: Rule, g: Graph, items: Match): (r: Result<Graph>)
    requires CanApply(rule, g, items)
    ensures r.Ok? ==> Valid(r.value) && r.value.next >= g.next
  {
    MatchedBelowNext(rule, g, items);
    var m := Image(items);
    var rev := Reverse(items);
    var g1 :- Strip(rule.input, m, g);
    var s :- AddOutputGraph(rule.output, rule.dicts.backward, m, g1);
    CopiesAboveAfterBuild(rule.output, rule.dicts.backward, m, g1, s);
    ReattachAll(s.graph, s.copies, rev, rev.Keys, g.next, TargetOrder(items))
  }

  /** What the first two phases of `apply` need: the mirrors of the input
      pattern's edges below its root are distinct edges of the target, and every
      output node the unfolding copies has a payload to copy. */
  ghost predicate Applicable(rule: Rule, g: Graph, items: Match) {
    && StripPlan(rule.input, Image(items)).Some?
    && Removable(g.order.Keys, StripPlan(rule.input, Image(items)).value)
    && Buildable(rule.output, rule.dicts.backward, Image(items), g, BuildPlan(rule.output))
  }

  /** `apply` succeeds when the first two phases can run and every matched
      target node is in the target; it succeeds only when the first two phases
      can run and every matched target node is in the target or is the root. */
  lemma ApplySucceeds(rule: Rule, g: Graph, items: Match)
    requires CanApply(rule, g, items)
    ensures Apply(rule, g, items).Ok? ==>
              Applicable(rule, g, items) && forall x | x in TargetOrder(items) :: x in g.nodes || x == Root
    ensures Applicable(rule, g, items) && (forall x | x in TargetOrder(items) :: x in g.nodes) ==>
              Apply(rule, g, items).Ok?
  {
    MatchedBelowNext(rule, g, items);
    var m := Image(items);
    var rev := Reverse(items);
    var backward := rule.dicts.backward;
    var stripped := Strip(rule.input, m, g);
    if stripped.Ok? {
      var g1 := stripped.value;
      assert forall o :: Copyable(rule.output, backward, m, g1, o) == Copyable(rule.output, backward, m, g, o);
      var built := AddOutputGraph(rule.output, backward, m, g1);
      if built.Ok? {
        var s := built.value;
        CopiesAboveAfterBuild(rule.output, backward, m, g1, s);
        BuildNodes(rule.output, backward, m, g1, s);
        ReattachAllSucceeds(s.graph, s.copies, rev, rev.Keys, g.next, TargetOrder(items));
      }
    }
  }

  /** The graphs after each phase of a successful `Apply`, named for the lemmas. */
  datatype Phases = Phases(stripped: Graph, built: Build, result: Graph)

  ghost function PhasesOf(rule: Rule, g: Graph, items: Match): (ph: Phases)
    requires CanApply(rule, g, items) && Apply(rule, g, items).Ok?
    ensures Strip(rule.input, Image(items), g) == Ok(ph.stripped)
    ensures OnlyMirrorsRemoved(rule.input, Image(items), g, ph.stripped)
    ensures AddOutputGraph(rule.output, rule.dicts.backward, Image(items), ph.stripped) == Ok(ph.built)
    ensures Instantiates(rule.output, rule.dicts.backward, Image(items), ph.stripped, ph.built)
    ensures CopiesAbove(ph.built.graph, ph.built.copies, g.next)
    ensures forall x | x in TargetOrder(items) :: x < g.next && x in Reverse(items)
    ensures ReattachAll(ph.built.graph, ph.built.copies, Reverse(items), Reverse(items).Keys, g.next, TargetOrder(items))
            == Ok(ph.result)
    ensures Apply(rule, g, items) == Ok(ph.result)
  {
    MatchedBelowNext(rule, g, items);
    var g1 := Strip(rule.input, Image(items), g).value;
    var s := AddOutputGraph(rule.output, rule.dicts.backward, Image(items), g1).value;
    CopiesAboveAfterBuild(rule.output, rule.dicts.backward, Image(items), g1, s);
    Phases(g1, s, Apply(rule, g, items).value)
  }

  /** Applying a rule adds no edge between two nodes the target already had, and
      two surviving siblings among them keep their relative order. */
  lemma ApplyKeepsOldEdges(rule: Rule, g: Graph, items: Match, p: NodeId, a: NodeId, b: NodeId)
    requires CanApply(rule, g, items) && Apply(rule, g, items).Ok?
    requires p < g.next && a < g.next && b < g.next
    requires (p, a) in Apply(rule, g, items).value.order && (p, b) in Apply(rule, g, items).value.order
    ensures (p, a) in g.order && (p, b) in g.order
    ensures var r := Apply(rule, g, items).value;
      g.order[(p, a)] < g.order[(p, b)] <==> r.order[(p, a)] < r.order[(p, b)]
  {
    var ph := PhasesOf(rule, g, items);
    var rev := Reverse(items);
    ReattachKeepsOldEdges(ph.built.graph, ph.built.copies, rev, rev.Keys, g.next, TargetOrder(items), p, a, b);
    BuildKeepsOldEdges(rule.output, rule.dicts.backward, Image(items), ph.stripped, ph.built);
  }

  /** Applying a rule keeps the sibling orders of every old node other than the
      root pairwise distinct. */
  lemma ApplyKeepsDistinctOrders(rule: Rule, g: Graph, items: Match, p: NodeId)
    requires CanApply(rule, g, items) && Apply(rule, g, items).Ok?
    requires p != Root && p < g.next && DistinctOrders(g, p)
    ensures DistinctOrders(Apply(rule, g, items).value, p)
  {
    var ph := PhasesOf(rule, g, items);
    var rev := Reverse(items);
    assert DistinctOrders(ph.stripped, p);
    BuildKeepsOldEdges(rule.output, rule.dicts.backward, Image(items), ph.stripped, ph.built);
    assert DistinctOrders(ph.built.graph, p);
    ReattachKeepsDistinctOrders(ph.built.graph, ph.built.copies, rev, rev.Keys, g.next, TargetOrder(items), p);
  }

  /** Applying a rule removes only matched nodes and brings in only the root and
      freshly allocated copies. */
  lemma ApplyNodes(rule: Rule, g: Graph, items: Match)
    requires CanApply(rule, g, items) && Apply(rule, g, items).Ok?
    ensures var r := Apply(rule, g, items).value;
      && (forall n | n in g.nodes && n !in Reverse(items) :: n in r.nodes)
      && (forall n | n in r.nodes && n !in g.nodes :: n == Root || (n >= g.next && n in r.value))
      && (forall x | x in Reverse(items) && Reverse(items)[x] in PhasesOf(rule, g, items).built.copies :: x !in r.nodes)
  {
    var ph := PhasesOf(rule, g, items);
    var rev := Reverse(items);
    ReattachNodes(ph.built.graph, ph.built.copies, rev, rev.Keys, g.next, TargetOrder(items));
    BuildNodes(rule.output, rule.dicts.backward, Image(items), ph.stripped, ph.built);
  }

  /** Applying a rule removes every matched target node whose input node is the
      correspondent of an output node reachable from the output root: that
      output node was copied in phase two, so phase three replaces the matched
      node by its copies. */
  lemma ApplyRemovesReplaced(rule: Rule, g: Graph, items: Match)
    requires CanApply(rule, g, items) && Apply(rule, g, items).Ok?
    ensures var r := Apply(rule, g, items).value;
      forall x, t, o | x in Reverse(items) && t in Successors(rule.output, Root)
                       && Reaches(rule.output, t, o, |rule.output.nodes|)
                       && o in rule.dicts.backward && rule.dicts.backward[o] == Reverse(items)[x] ::
        x !in r.nodes
  {
    var ph := PhasesOf(rule, g, items);
    var s := ph.built;
    var n := |rule.output.nodes|;
    ApplyNodes(rule, g, items);
    forall x, t, o | x in Reverse(items) && t in Successors(rule.output, Root)
                     && Reaches(rule.output, t, o, n)
                     && o in rule.dicts.backward && rule.dicts.backward[o] == Reverse(items)[x]
      ensures x !in ph.result.nodes
    {
      assert TopCopied(rule.output, rule.dicts.backward, s, t, n);
      var c :| c in s.origin && CopiedBelow(rule.output, s, t, c, n);
      CopiedBelowRecords(rule.output, rule.dicts.backward, Image(items), ph.stripped, s, t, c, o, n);
    }
  }

  /** `v` is a payload the rule may introduce: one of its output pattern's, or
      that of a target node the match sends an input node to. */
  ghost predicate FromRule(rule: Rule, g: Graph, items: Match, v: Payload) {
    || v in rule.output.value.Values
    || exists k | k in Image(items) :: Image(items)[k] in g.value && v == g.value[Image(items)[k]]
  }

  /** Every node a rule application brings in, other than the root, carries a
      payload of the output pattern or the payload of a matched target node. */
  lemma ApplyNewPayloads(rule: Rule, g: Graph, items: Match)
    requires CanApply(rule, g, items) && Apply(rule, g, items).Ok?
    ensures var r := Apply(rule, g, items).value;
      forall n | n in r.nodes && n !in g.nodes && n != Root :: n in r.value && FromRule(rule, g, items, r.value[n])
  {
    var ph := PhasesOf(rule, g, items);
    var r := ph.result;
    var m := Image(items);
    ApplyNodes(rule, g, items);
    BuildPayloads(rule.output, rule.dicts.backward, m, ph.stripped, ph.built);
    assert r.value == ph.built.graph.value && ph.stripped.value == g.value;
    forall n | n in r.nodes && n !in g.nodes && n != Root
      ensures n in r.value && FromRule(rule, g, items, r.value[n])
    {
      assert n >= g.next && n in r.value;
      assert n !in ph.stripped.value;
    }
  }
}

=== FILE: strip.dfy ===
/** Phase one of `Rule.apply` (`_remove_mapped_edges_rec`): strip from the
    target the edges that mirror, under the match, the input pattern's edges. */
module StripMatched {
  import opened Results
  import opened OrderedGraph

  /** The target edges that mirror some input-pattern edge under the match `m`. */
  ghost function MirrorEdges(p: Pattern, m: map<NodeId, NodeId>): set<Edge> {
    set u, v | u in p.succ && v in p.succ[u] && u in m && v in m :: (m[u], m[v])
  }

  /** Every pattern edge on a path of at most `fuel + 1` edges down from `node`
      has its mirror absent from `g`. */
  ghost predicate Stripped(p: Pattern, m: map<NodeId, NodeId>, g: Graph, node: NodeId, fuel: nat)
    decreases fuel
  {
    forall v | v in Successors(p, node) ::
      && node in m && v in m
      && (m[node], m[v]) !in g.order
      && fuel > 0 && Stripped(p, m, g, v, fuel - 1)
  }

  /** Only removal happened between `g` and `g'`: same nodes and payloads, no new
      edge, surviving edges keep their order, and every removed edge is a mirror. */
  ghost predicate OnlyMirrorsRemoved(p: Pattern, m: map<NodeId, NodeId>, g: Graph, g': Graph) {
    && Valid(g')
    && g'.nodes == g.nodes && g'.value == g.value && g'.next == g.next
    && g'.order.Keys <= g.order.Keys
    && (forall e | e in g'.order :: g'.order[e] == g.order[e])
    && g.order.Keys - g'.order.Keys <= MirrorEdges(p, m)
  }

  lemma OnlyMirrorsRemovedTrans(p: Pattern, m: map<NodeId, NodeId>, g1: Graph, g2: Graph, g3: Graph)
    requires OnlyMirrorsRemoved(p, m, g1, g2) && OnlyMirrorsRemoved(p, m, g2, g3)
    ensures OnlyMirrorsRemoved(p, m, g1, g3)
  {
  }

  /** Removing more edges keeps a stripped region stripped. */
  lemma {:induction false} StrippedMonotone(p: Pattern, m: map<NodeId, NodeId>, g: Graph, g': Graph, node: NodeId, fuel: nat)
    requires Stripped(p, m, g, node, fuel)
    requires g'.order.Keys <= g.order.Keys
    ensures Stripped(p, m, g', node, fuel)
    decreases fuel
  {
    forall v | v in Successors(p, node)
      ensures fuel > 0 && Stripped(p, m, g', v, fuel - 1)
    {
      StrippedMonotone(p, m, g, g', v, fuel - 1);
    }
  }

  /** The target edges phase one removes below `node`, in removal order: for each
      successor `v` of `node`, the mirror of `node -> v` followed by the edges
      removed below `v`. `None` when a pattern node on the way has no match entry
      or the descent is deeper than `fuel`. This is computed from the pattern and
      the match alone, without looking at the target. */
  ghost function MirrorsFrom(p: Pattern, m: map<NodeId, NodeId>, node: NodeId, fuel: nat): Option<seq<Edge>>
    decreases fuel, 0
  {
    var succs := Successors(p, node);
    if succs == [] then Some([])
    else if fuel == 0 then None
    else MirrorsEach(p, m, node, succs, fuel - 1)
  }

  ghost function MirrorsEach(p: Pattern, m: map<NodeId, NodeId>, node: NodeId, succs: seq<NodeId>, fuel: nat)
    : Option<seq<Edge>>
    decreases fuel, 1, |succs|
  {
    if succs == [] then Some([])
    else if node !in m || succs[0] !in m then None
    else
      var below := MirrorsFrom(p, m, succs[0], fuel);
      var rest := MirrorsEach(p, m, node, succs[1..], fuel);
      if below.None? || rest.None? then None
      else Some([(m[node], m[succs[0]])] + below.value + rest.value)
  }

  /** The mirrors below each of `roots` in turn. */
  ghost function MirrorsRoots(p: Pattern, m: map<NodeId, NodeId>, roots: seq<NodeId>, fuel: nat): Option<seq<Edge>>
    decreases |roots|
  {
    if roots == [] then Some([])
    else
      var first := MirrorsFrom(p, m, roots[0], fuel);
      var rest := MirrorsRoots(p, m, roots[1..], fuel);
      if first.None? || rest.None? then None else Some(first.value + rest.value)
  }

  /** The edges the whole of phase one removes, when it can get through the pattern. */
  ghost function StripPlan(p: Pattern, m: map<NodeId, NodeId>): Option<seq<Edge>> {
    MirrorsRoots(p, m, Successors(p, Root), |p.nodes|)
  }

  ghost function EdgesOf(l: seq<Edge>): set<Edge> {
    set e | e in l
  }

  /** Removing the edges `l` one after another from a graph whose edges are `keys`
      never hits an absent edge: every edge is present and none comes twice. */
  ghost predicate Removable(keys: set<Edge>, l: seq<Edge>) {
    && (forall i, j | 0 <= i < j < |l| :: l[i] != l[j])
    && (forall i | 0 <= i < |l| :: l[i] in keys)
  }

  lemma RemovableConcat(keys: set<Edge>, a: seq<Edge>, b: seq<Edge>)
    ensures Removable(keys, a + b) <==> Removable(keys, a) && Removable(keys - EdgesOf(a), b)
  {
    var ab := a + b;
    if Removable(keys, a) && Removable(keys - EdgesOf(a), b) {
      forall i, j | 0 <= i < j < |ab| ensures ab[i] != ab[j] {
        if i < |a| && j >= |a| {
          assert ab[i] in EdgesOf(a);
          assert ab[j] == b[j - |a|];
        }
      }
    }
    if Removable(keys, ab) {
      assert forall i | 0 <= i < |a| :: a[i] == ab[i];
      assert forall i | 0 <= i < |b| :: b[i] == ab[|a| + i];
      forall i, k | 0 <= i < |b| && 0 <= k < |a| ensures a[k] != b[i] {
        assert ab[k] != ab[|a| + i];
      }
    }
  }

  /** The shape of one step of `StripEach`: the first mirror, then the ones below,
      then the rest. */
  lemma RemovableStep(keys: set<Edge>, e: Edge, a: seq<Edge>, b: seq<Edge>)
    ensures Removable(keys, [e] + a + b)
            <==> e in keys && Removable(keys - {e}, a) && Removable(keys - {e} - EdgesOf(a), b)
    ensures EdgesOf([e] + a + b) == {e} + EdgesOf(a) + EdgesOf(b)
  {
    RemovableConcat(keys, [e] + a, b);
    RemovableConcat(keys, [e], a);
    assert EdgesOf([e] + a) == {e} + EdgesOf(a);
    assert keys - EdgesOf([e] + a) == keys - {e} - EdgesOf(a);
    assert EdgesOf([e]) == {e};
  }

  /** `_remove_mapped_edges_rec(node)`: for each successor of `node` in the input
      pattern, remove the mirrored target edge, then descend into the successor.
      A missing match entry or a missing target edge fails; so does running out of
      `fuel`, which bounds the depth of descent. */
  function StripFrom(p: Pattern, m: map<NodeId, NodeId>, g: Graph, node: NodeId, fuel: nat): (r: Result<Graph>)
    requires Valid(g)
    ensures r.Ok? ==> OnlyMirrorsRemoved(p, m, g, r.value)
    ensures r.Ok? ==> Stripped(p, m, r.value, node, fuel)
    ensures r.Ok? <==> MirrorsFrom(p, m, node, fuel).Some? && Removable(g.order.Keys, MirrorsFrom(p, m, node, fuel).value)
    ensures r.Ok? ==> r.value.order.Keys == g.order.Keys - EdgesOf(MirrorsFrom(p, m, node, fuel).value)
    ensures r.Err? && MirrorsFrom(p, m, node, fuel).Some? ==> r.error == MissingEdge
    decreases fuel, 0, 0, 0
  {
    var succs := Successors(p, node);
    if succs == [] then Ok(g)
    else if fuel == 0 then Err(RecursionLimit)
    else StripEach(p, m, g, node, succs, fuel - 1)
  }

  /** The loop of `_remove_mapped_edges_rec` over the successors `succs` of `node`. */
  function StripEach(p: Pattern, m: map<NodeId, NodeId>, g: Graph, node: NodeId, succs: seq<NodeId>, fuel: nat)
    : (r: Result<Graph>)
    requires Valid(g)
    requires forall v | v in succs :: v in Successors(p, node)
    ensures r.Ok? ==> OnlyMirrorsRemoved(p, m, g, r.value)
    ensures r.Ok? ==> forall v | v in succs ::
                        node in m && v in m && (m[node], m[v]) !in r.value.order && Stripped(p, m, r.value, v, fuel)
    ensures succs != [] && (node !in m || succs[0] !in m) ==> r == Err(MissingKey)
    ensures succs != [] && node in m && succs[0] in m && (m[node], m[succs[0]]) !in g.order ==> r == Err(MissingEdge)
    ensures r.Ok? <==> MirrorsEach(p, m, node, succs, fuel).Some?
                       && Removable(g.order.Keys, MirrorsEach(p, m, node, succs, fuel).value)
    ensures r.Ok? ==> r.value.order.Keys == g.order.Keys - EdgesOf(MirrorsEach(p, m, node, succs, fuel).value)
    ensures r.Err? && MirrorsEach(p, m, node, succs, fuel).Some? ==> r.error == MissingEdge
    decreases fuel, 1, |succs|, 1
  {
    if succs == [] then Ok(g) else StripFirst(p, m, g, node, succs, fuel)
  }

  /** A round of that loop on a non-empty `succs`: remove the mirror of
      `node -> succs[0]`, strip below `succs[0]`, then go on with the rest. */
  function StripFirst(p: Pattern, m: map<NodeId, NodeId>, g: Graph, node: NodeId, succs: seq<NodeId>, fuel: nat)
    : (r: Result<Graph>)
    requires Valid(g)
    requires succs != [] && forall v | v in succs :: v in Successors(p, node)
    ensures r.Ok? ==> OnlyMirrorsRemoved(p, m, g, r.value)
    ensures r.Ok? ==> forall v | v in succs ::
                        node in m && v in m && (m[node], m[v]) !in r.value.order && Stripped(p, m, r.value, v, fuel)
    ensures node !in m || succs[0] !in m ==> r == Err(MissingKey)
    ensures node in m && succs[0] in m && (m[node], m[succs[0]]) !in g.order ==> r == Err(MissingEdge)
    ensures r.Ok? <==> MirrorsEach(p, m, node, succs, fuel).Some?
                       && Removable(g.order.Keys, MirrorsEach(p, m, node, succs, fuel).value)
    ensures r.Ok? ==> r.value.order.Keys == g.order.Keys - EdgesOf(MirrorsEach(p, m, node, succs, fuel).value)
    ensures r.Err? && MirrorsEach(p, m, node, succs, fuel).Some? ==> r.error == MissingEdge
    decreases fuel, 1, |succs|, 0
  {
    var v := succs[0];
    if node !in m || v !in m then Err(MissingKey)
    else
      var below := MirrorsFrom(p, m, v, fuel);
      var rest := MirrorsEach(p, m, node, succs[1..], fuel);
      RemovableStep(g.order.Keys, (m[node], m[v]), if below.Some? then below.value else [],
                    if rest.Some? then rest.value else []);
      var removed := RemoveEdge(g, m[node], m[v]);
      if removed.Err? then Err(removed.error)
      else
        var below := StripFrom(p, m, removed.value, v, fuel);
        if below.Err? then Err(below.error)
        else
          var rest := StripEach(p, m, below.value, node, succs[1..], fuel);
          if rest.Err? then rest
          else
            StripEachStep(p, m, g, removed.value, below.value, rest.value, node, v, succs, fuel);
            rest
  }

  lemma StripEachStep(p: Pattern, m: map<NodeId, NodeId>, g: Graph, g1: Graph, g2: Graph, g3: Graph,
                      node: NodeId, v: NodeId, succs: seq<NodeId>, fuel: nat)
    requires Valid(g) && |succs| > 0 && succs[0] == v && node in m && v in m
    requires forall w | w in succs :: w in Successors(p, node)
    requires Valid(g1) && g1.nodes == g.nodes && g1.value == g.value && g1.next == g.next
    requires g1.order.Keys == g.order.Keys - {(m[node], m[v])}
    requires forall e | e in g1.order :: g1.order[e] == g.order[e]
    requires OnlyMirrorsRemoved(p, m, g1, g2) && Stripped(p, m, g2, v, fuel)
    requires OnlyMirrorsRemoved(p, m, g2, g3)
    requires forall w | w in succs[1..] ::
               node in m && w in m && (m[node], m[w]) !in g3.order && Stripped(p, m, g3, w, fuel)
    ensures OnlyMirrorsRemoved(p, m, g, g3)
    ensures forall w | w in succs :: (m[node], m[w]) !in g3.order && Stripped(p, m, g3, w, fuel)
  {
    assert (m[node], m[v]) in MirrorEdges(p, m) by {
      assert v in succs;
      assert v in Successors(p, node);
      assert node in p.succ && v in p.succ[node];
    }
    assert OnlyMirrorsRemoved(p, m, g, g1);
    OnlyMirrorsRemovedTrans(p, m, g, g1, g2);
    OnlyMirrorsRemovedTrans(p, m, g, g2, g3);
    StrippedMonotone(p, m, g2, g3, v, fuel);
    forall w | w in succs
      ensures (m[node], m[w]) !in g3.order && Stripped(p, m, g3, w, fuel)
    {
      if w != v {
        assert w in succs[1..];
      }
    }
  }

  /** Lines 128-129 of `apply`: strip below every child of the input pattern's root.
      The root's own edges are left in place. */
  function StripRoots(p: Pattern, m: map<NodeId, NodeId>, g: Graph, roots: seq<NodeId>, fuel: nat): (r: Result<Graph>)
    requires Valid(g)
    ensures r.Ok? ==> OnlyMirrorsRemoved(p, m, g, r.value)
    ensures r.Ok? ==> forall n | n in roots :: Stripped(p, m, r.value, n, fuel)
    ensures r.Ok? <==> MirrorsRoots(p, m, roots, fuel).Some? && Removable(g.order.Keys, MirrorsRoots(p, m, roots, fuel).value)
    ensures r.Ok? ==> r.value.order.Keys == g.order.Keys - EdgesOf(MirrorsRoots(p, m, roots, fuel).value)
    ensures r.Err? && MirrorsRoots(p, m, roots, fuel).Some? ==> r.error == MissingEdge
    decreases |roots|
  {
    if roots == [] then Ok(g)
    else
      var first0 := MirrorsFrom(p, m, roots[0], fuel);
      var rest0 := MirrorsRoots(p, m, roots[1..], fuel);
      var a := if first0.Some? then first0.value else [];
      var b := if rest0.Some? then rest0.value else [];
      RemovableConcat(g.order.Keys, a, b);
      assert EdgesOf(a + b) == EdgesOf(a) + EdgesOf(b);
      var first := StripFrom(p, m, g, roots[0], fuel);
      if first.Err? then first
      else
        var rest := StripRoots(p, m, first.value, roots[1..], fuel);
        if rest.Err? then rest
        else
          OnlyMirrorsRemovedTrans(p, m, g, first.value, rest.value);
          StrippedMonotone(p, m, first.value, rest.value, roots[0], fuel);
          assert forall n | n in roots :: n == roots[0] || n in roots[1..];
          rest
  }

  /** Phase one on the whole input pattern; the depth bound is the pattern's size. */
  function Strip(p: Pattern, m: map<NodeId, NodeId>, g: Graph): (r: Result<Graph>)
    requires Valid(g)
    ensures r.Ok? ==> OnlyMirrorsRemoved(p, m, g, r.value)
    ensures r.Ok? ==> forall n | n in Successors(p, Root) :: Stripped(p, m, r.value, n, |p.nodes|)
    ensures r.Ok? <==> StripPlan(p, m).Some? && Removable(g.order.Keys, StripPlan(p, m).value)
    ensures r.Ok? ==> r.value.order.Keys == g.order.Keys - EdgesOf(StripPlan(p, m).value)
    ensures r.Err? && StripPlan(p, m).Some? ==> r.error == MissingEdge
  {
    StripRoots(p, m, g, Successors(p, Root), |p.nodes|)
  }
}
